=== FILE: README.md ===
# zeus-io core, modelled in Dafny

This project models the non-blocking I/O core of the zeus-io PHP library:

- the **selection key**: a stream's interest set and ready set, both PHP integer bit masks over READ (1), WRITE (2) and ACCEPT (4), plus an attachment;
- the **selector**: a registry from resource id to selection key. It keeps one interest set of stream ids per operation. A poll (`stream_select`) becomes a fresh set of selected keys;
- the **streams**: `AbstractStream` and the `SocketStream` overrides, as one `Stream` record with a `Kind`. It covers mode detection, readability latching on EOF, reads, write buffering with flush, close, buffer sizes, blocking mode, shutdown and the socket timeout;
- the **stream tunnel**: one step of copying from a source stream to a destination stream. It carries the saturation (backpressure) state machine and the interest changes it asks of the selector;
- the **socket server**: create, bind once, options before binding, the lazily created socket object, accept, close, and the local address;
- the PHP conversions the server relies on: `(int)` of a string, `(string)` of an integer, and `end(explode(':', …))`.

Everything the operating system answers is an input:

- the poll result;
- EOF probes;
- what `stream_socket_recvfrom` and `fwrite` return;
- whether `doClose` throws;
- what `stream_socket_server` and `stream_socket_accept` give.

An operation that changes state and then throws returns an `Outcome(state, result)`. The caller therefore sees both the partial change and the error.

The ready mask is a 64-bit vector in the model, because it is only ever changed by the setters' XOR idiom on a PHP integer (`$ops ^= (-$on ^ $ops) & FLAG`). That idiom is modelled literally and proved equal to "set or clear the flag". The interest mask is only ever stored through `setInterestOps`' range check, so it is an integer in 0..7. Mask arguments of `register` and `unregister` are unrestricted integers, because those calls check the range themselves.

Five behaviours of the source may look unintended. The model reproduces them as written:

- **Closing a stream does not send buffered data.** `close()` never flushes the stream's own write buffer. `doClose` only calls PHP's `fflush` on the resource.
- **Leaving saturation cancels WRITE on the wrong key.** The tunnel cancels the WRITE interest on the *source* key (`src/Zeus/IO/Stream/StreamTunnel.php:98`), not the destination's.
- **Selected keys are pruned by position.** Unregistering removes `selectedKeys[$resourceId]` (`src/Zeus/IO/Stream/Selector.php:131`), and the pruning loop at the start of `select` removes `selectedKeys[$key]` for each closed stream (`src/Zeus/IO/Stream/Selector.php:165`). Both indexes are list positions, not resource ids. `Selectors.UnregisterPrunesByPosition` and `Selectors.PruneDropsByPosition` each show a stream that stays selected after it left the registry, while another stream is dropped.
- **An unregistered, closed stream acts as key 0.** Unregistering such a stream uses `array_search`'s `false` as key 0. PHP never hands out resource id 0, so no key sits there, but position 0 of the selected list does. `Selectors.UnknownClosedDropsFirstSelected` shows such a call dropping the first selected key.
- **Leaving saturation can throw.** Saturating cancels READ on the source key, which drops a key that had only READ interest. If the source has reached its end when saturation ends, READ is not registered again, and the `cancel(OP_WRITE)` on the source key then finds no registered stream and throws. `StreamTunnels.DesaturationCanThrow` shows this by applying both steps' selector calls with `StreamTunnels.ApplyEffects`.

## Model

| member | source | states |
|---|---|---|
| SelectionKeys.Union | src/Zeus/IO/Stream/Selector.php:64-81 | merging two interest masks by bitwise or keeps exactly the operations present in either |
| SelectionKeys.XorAssignIsSetOrClear | src/Zeus/IO/Stream/SelectionKey.php:53-72 | the XOR update `ops ^= (-on ^ ops) & flag` sets the flag when `on` and clears it otherwise |
| SelectionKeys.SetOrClearFlag | src/Zeus/IO/Stream/SelectionKey.php:53-72 | setting or clearing one ready flag leaves the other flags and the 3-bit range intact |
| SelectionKeys.NewKey | src/Zeus/IO/Stream/SelectionKey.php:14-16 | a new key has no ready and no interest operations and no attachment |
| SelectionKeys.ReadyOpsFromFlags | src/Zeus/IO/Stream/SelectionKey.php:38-51 | the ready mask is the sum of the readable, writable and acceptable flags |
| SelectionKeys.SetReadable | src/Zeus/IO/Stream/SelectionKey.php:53-58 | after `setReadable(on)` the key is readable iff `on`; writable, acceptable and everything but the ready mask are unchanged |
| SelectionKeys.SetWritable | src/Zeus/IO/Stream/SelectionKey.php:60-65 | after `setWritable(on)` the key is writable iff `on`; the other flags and fields are unchanged |
| SelectionKeys.SetAcceptable | src/Zeus/IO/Stream/SelectionKey.php:67-72 | after `setAcceptable(on)` the key is acceptable iff `on`; the other flags and fields are unchanged |
| SelectionKeys.SetReadyInRange | src/Zeus/IO/Stream/SelectionKey.php:53-72 | any ready setter keeps the mask within READ, WRITE and ACCEPT and touches nothing but the mask |
| SelectionKeys.SetReadyAllInRange | src/Zeus/IO/Stream/SelectionKey.php:53-72 | any sequence of ready setters keeps the mask within the three flags and touches nothing else |
| SelectionKeys.HasIsHasOp | src/Zeus/IO/Stream/SelectionKey.php:38-51 | testing an operation bit on the 64-bit word and on the integer in 0..7 agree |
| SelectionKeys.SetReadyKeepsOthers | src/Zeus/IO/Stream/SelectionKey.php:53-72 | a call of one ready setter leaves the other two flags as they were |
| SelectionKeys.OtherCallsKeep | src/Zeus/IO/Stream/SelectionKey.php:53-72 | a sequence of setter calls that never names a flag leaves that flag as it was |
| SelectionKeys.SetReadyAllLastWins | src/Zeus/IO/Stream/SelectionKey.php:53-72 | after any sequence of setter calls, each flag is decided by the last call on it, whatever calls on the other flags follow |
| SelectionKeys.Attach | src/Zeus/IO/Stream/SelectionKey.php:77-88 | `getAttachment` after `attach(x)` returns `x`; masks and stream are unchanged |
| SelectionKeys.SetInterestOps | src/Zeus/IO/Stream/SelectionKey.php:114-121 | succeeds iff the mask is in 0..7, then `getInterestOps` returns it; otherwise a logic error |
| Selectors.NewSelector | src/Zeus/IO/Stream/Selector.php:20-32 | a new selector has no keys and nothing selected, and is well formed |
| Selectors.Register | src/Zeus/IO/Stream/Selector.php:34-84 | an out-of-range mask is an invalid argument; READ needs a readable stream, WRITE a writable one, and no stream may be closed (I/O error); on success the key is reused or created, its interest is the union of old and new, and the stream joins exactly the requested operation sets |
| Selectors.RegisterKeepsValid | src/Zeus/IO/Stream/Selector.php:52-83 | registration keeps the registry consistent: the sets hold registered ids, and each key's interest mask matches them |
| Selectors.RegisterTwiceIsOnce | src/Zeus/IO/Stream/Selector.php:55-81 | registering the same stream for the same operations again changes nothing and returns the same key |
| Selectors.RegisterReadThenWrite | src/Zeus/IO/Stream/Selector.php:64-81 | registering READ and then WRITE gives one key interested in both |
| Selectors.Unregister | src/Zeus/IO/Stream/Selector.php:86-134 | an unknown open stream is an I/O error; the requested operations are removed from the stream's sets; the key is dropped when neither READ nor WRITE interest is left, otherwise its interest mask is untouched |
| Selectors.Cancel | src/Zeus/IO/Stream/SelectionKey.php:95-98 | cancelling a key unregisters its stream from the selector with the given operations |
| Selectors.CancelAllRemovesKey | src/Zeus/IO/Stream/Selector.php:113-133 | cancelling all operations of a registered key always succeeds and removes the key |
| Selectors.AcceptInterestAloneDoesNotKeepKey | src/Zeus/IO/Stream/Selector.php:113-125 | a stream left with only ACCEPT interest is unregistered completely |
| Selectors.PartialUnregisterKeepsInterestOps | src/Zeus/IO/Stream/Selector.php:98-111 | a partial unregister that keeps the key leaves its interest mask as it was |
| Selectors.UnregisterUnknownClosedIsNoOp | src/Zeus/IO/Stream/Selector.php:88-96 | unregistering a closed, unknown stream succeeds and, with no key at position 0, changes nothing |
| Selectors.UnknownClosedDropsFirstSelected | src/Zeus/IO/Stream/Selector.php:90-133 | in a consistent selector with no stream 0, unregistering a closed, unknown stream succeeds, keeps every key, and drops exactly the selected key at list position 0 |
| Selectors.UnregisterPrunesByPosition | src/Zeus/IO/Stream/Selector.php:131 | removing stream 1 from selected list [1, 2] leaves stream 1 selected and drops stream 2 |
| Selectors.Prune | src/Zeus/IO/Stream/Selector.php:159-168 | before polling, closed streams leave the keys and all operation sets, and the selected list loses the positions equal to their ids (a closed stream selected at another position stays); everything else is kept |
| Selectors.PruneDropsByPosition | src/Zeus/IO/Stream/Selector.php:165 | with streams 5 and 7 selected at positions 0 and 5 and stream 5 closed, pruning keeps stream 5 selected and drops the open stream 7 |
| Selectors.NothingWatchedNothingReady | src/Zeus/IO/Stream/Selector.php:170-180 | with nothing to watch, the poll cannot report any stream ready |
| Selectors.Select | src/Zeus/IO/Stream/Selector.php:157-218 | a failed poll is an I/O error iff something was watched; no ready stream gives 0 and only pruning; otherwise the result is the number of distinct ready streams and the keys are recomputed |
| Selectors.SelectReady | src/Zeus/IO/Stream/Selector.php:197-213 | when the poll reports streams, `select` returns a positive count equal to the number of selected keys, and the selected ids are exactly the ready ones |
| Selectors.SelectKeepsValid | src/Zeus/IO/Stream/Selector.php:157-218 | polling keeps the registry consistent |
| Selectors.ClearReady | src/Zeus/IO/Stream/Selector.php:224-228 | resetting a key clears all three ready flags and nothing else |
| Selectors.MarkOne | src/Zeus/IO/Stream/Selector.php:232-247 | a ready stream with ACCEPT interest becomes acceptable; otherwise it becomes readable or writable by the poll slot it came from; other flags are kept |
| Selectors.MarkPoolKey | src/Zeus/IO/Stream/Selector.php:230-251 | after marking one poll slot, a key is flagged iff its id occurred in that slot; keys outside the slot are unchanged |
| Selectors.CollectSpec | src/Zeus/IO/Stream/Selector.php:230-253 | the selected list holds exactly the ids of the order so far and the pool, without duplicates when the order had none |
| Selectors.ComputedKeys | src/Zeus/IO/Stream/Selector.php:220-254 | after recomputation each key's ready flags are exactly those implied by the poll and its ACCEPT interest |
| Selectors.CollectedOnce | src/Zeus/IO/Stream/Selector.php:230-253 | the selected list holds each ready id once and nothing else |
| Selectors.ComputeSelectedKeysSpec | src/Zeus/IO/Stream/Selector.php:220-254 | recomputation yields selected keys equal to the ready ids, counted once each, with every key recomputed and the registry consistent |
| Selectors.ComputeSelectedKeys | src/Zeus/IO/Stream/Selector.php:220-254 | no contract of its own; what it computes is stated by the rows of `Selectors.ComputedKeys`, `Selectors.CollectedOnce` and `Selectors.ComputeSelectedKeysSpec` |
| Selectors.GetKeys | src/Zeus/IO/Stream/Selector.php:139-142 | no contract of its own: the registered resource ids; stated through the rows of `Selectors.CancelAllRemovesKey`, `Selectors.AcceptInterestAloneDoesNotKeepKey` and `Selectors.Prune` |
| Selectors.SelectedIds | src/Zeus/IO/Stream/Selector.php:259-262 | no contract of its own: the resource ids at the selected positions; stated through the rows of `Selectors.SelectReady` and `Selectors.CollectedOnce` |
| Selectors.ListOfDistinct | src/Zeus/IO/Stream/Selector.php:253 | a duplicate-free list keeps all its ids, one per position |
| Streams.WritableMode | src/Zeus/IO/Stream/AbstractStream.php:89-91 | a mode is writable iff it contains one of w, a, x, c or "r+" |
| Streams.ReadableMode | src/Zeus/IO/Stream/AbstractStream.php:93-95 | a mode is readable iff it contains r or one of "w+", "x+", "a+", "c+" |
| Streams.NewStream | src/Zeus/IO/Stream/SocketStream.php:43-47 | a socket stream starts readable and writable, a plain stream as its mode says; all start open, blocking, empty, with default buffer sizes and timeout |
| Streams.ProbeReadable | src/Zeus/IO/Stream/AbstractStream.php:98-101 | a plain stream answers readable iff flagged readable, open and not at EOF, and stores that answer; a socket only reads its flag |
| Streams.EofLatches | src/Zeus/IO/Stream/AbstractStream.php:98-101 | once a plain stream has seen EOF it never reports readable again |
| Streams.Read | src/Zeus/IO/Stream/AbstractStream.php:179-201 | reading fails when the stream is not readable (or, for a socket, the receive fails, which marks it unreadable); a successful read counts its bytes as received and changes nothing else |
| Streams.Drop | src/Zeus/IO/Stream/AbstractStream.php:247-250 | what was sent followed by what remains is the old buffer |
| Streams.IsClosed | src/Zeus/IO/Stream/AbstractStream.php:152-155 | no contract of its own: the stream's own closed flag (a resource closed from outside is left out) |
| Streams.IsWritable | src/Zeus/IO/Stream/AbstractStream.php:174-177 | no contract of its own: the writable flag of a stream that is still open; stated through the rows of `Streams.Write` and `Streams.DoWrite` |
| Streams.DoWrite | src/Zeus/IO/Stream/AbstractStream.php:231-253 | an OS write failure, a negative count or EOF marks the stream unwritable and throws; otherwise the sent prefix leaves the buffer and is counted |
| Streams.Write | src/Zeus/IO/Stream/AbstractStream.php:203-218 | writing to an unwritable stream throws; data that fits the buffer is only buffered; otherwise it is sent with one OS write whose reported count is returned, and sent bytes plus the new buffer equal the old buffer plus the data |
| Streams.Flush | src/Zeus/IO/Stream/AbstractStream.php:220-225 | a flush reports true iff the write buffer is now empty |
| Streams.FlushDrains | src/Zeus/IO/Stream/AbstractStream.php:220-225 | a flush the OS fully accepts empties the buffer; a short write reports false |
| Streams.UnbufferedWriteSendsAll | src/Zeus/IO/Stream/AbstractStream.php:203-218 | with a zero buffer size every write is sent at once |
| Streams.WriteAllConserves | src/Zeus/IO/Stream/AbstractStream.php:203-253 | over any run of writes, bytes sent plus the final buffer equal the old buffer plus all the data |
| Streams.BufferedWritesAccumulate | src/Zeus/IO/Stream/AbstractStream.php:207-210 | writes that fit the buffer accumulate without reaching the OS |
| Streams.Close | src/Zeus/IO/Stream/AbstractStream.php:127-150 | closing a closed stream throws; otherwise the stream is closed, unreadable and unwritable before `doClose`, whose failure is rethrown |
| Streams.CloseTwiceFails | src/Zeus/IO/Stream/AbstractStream.php:129-131 | a second close always fails and changes nothing |
| Streams.SetBlocking | src/Zeus/IO/Stream/AbstractStream.php:108-122 | the blocking flag changes iff the OS call succeeds; otherwise an I/O error |
| Streams.SetWriteBufferSize | src/Zeus/IO/Stream/AbstractStream.php:255-261 | sizes below 0 are out of range; others are stored |
| Streams.SetReadBufferSize | src/Zeus/IO/Stream/AbstractStream.php:263-269 | sizes below 1 are out of range; others are stored |
| Streams.ReadBufferSizeUsed | src/Zeus/IO/Stream/AbstractStream.php:179-185 | a read with no size asks for the configured read buffer size |
| Streams.Shutdown | src/Zeus/IO/Stream/SocketStream.php:101-120 | shutting down a side already shut down throws; otherwise read and/or write are lowered |
| Streams.ShutdownBothIsReadThenWrite | src/Zeus/IO/Stream/SocketStream.php:101-120 | shutting down both sides is read first, then write, and a failure on the read side stops it |
| Streams.SetSoTimeout | src/Zeus/IO/Stream/SocketStream.php:143-151 | `getSoTimeout` returns what `setSoTimeout` stored; nothing else changes |
| StreamTunnels.NewTunnel | src/Zeus/IO/Stream/StreamTunnel.php:17-26 | a new tunnel is not saturated and has no id |
| StreamTunnels.SetSaturated | src/Zeus/IO/Stream/StreamTunnel.php:116-124 | `isSaturated` returns what `setSaturated` stored |
| StreamTunnels.GetId | src/Zeus/IO/Stream/StreamTunnel.php:33-39 | reading an id that was never set is a logic error |
| StreamTunnels.SetIdThenGetId | src/Zeus/IO/Stream/StreamTunnel.php:28-39 | `getId` returns what `setId` stored |
| StreamTunnels.TunnelStep | src/Zeus/IO/Stream/StreamTunnel.php:41-73 | a failing step (read error, EOF, failed write or flush) asks nothing of the selector and leaves saturation alone, and the id is kept; its branches are stated by the lemma rows from `StreamTunnels.SaturatedNeverReads` to `StreamTunnels.SaturationFollowsFlush` |
| StreamTunnels.WriteStep | src/Zeus/IO/Stream/StreamTunnel.php:75-114 | a failed write or flush asks nothing of the selector and leaves the tunnel and the source alone, and the id is kept; the rest is stated by the lemma rows from `StreamTunnels.SaturatedWaitsForDestination` to `StreamTunnels.DesaturationCanThrow` |
| StreamTunnels.SaturatedNeverReads | src/Zeus/IO/Stream/StreamTunnel.php:43-48 | a saturated tunnel never reads its source; the destination is at most flushed |
| StreamTunnels.NotReadyIsNoOp | src/Zeus/IO/Stream/StreamTunnel.php:52-54 | a source key that is not read-ready makes the step a no-op |
| StreamTunnels.UnreadableSourceCancelsRead | src/Zeus/IO/Stream/StreamTunnel.php:56-59 | an unreadable source only cancels READ on the source key |
| StreamTunnels.EmptyReadIsEof | src/Zeus/IO/Stream/StreamTunnel.php:61-70 | an empty read ends in an EOF error, shutting a socket source down for reading |
| StreamTunnels.DataWrittenOnceThenFlushed | src/Zeus/IO/Stream/StreamTunnel.php:72-89 | data read is written to the destination exactly once before the flush |
| StreamTunnels.SaturatedWaitsForDestination | src/Zeus/IO/Stream/StreamTunnel.php:83-113 | a saturated tunnel whose destination is not write-ready does nothing |
| StreamTunnels.FailedFlushSaturates | src/Zeus/IO/Stream/StreamTunnel.php:107-112 | a flush that leaves data buffered saturates the tunnel, asks for WRITE on a writable destination and cancels READ on the source |
| StreamTunnels.SaturatedFailedFlushStays | src/Zeus/IO/Stream/StreamTunnel.php:103-105 | a saturated tunnel whose flush still leaves data stays saturated and changes no interest |
| StreamTunnels.SuccessfulFlushDesaturates | src/Zeus/IO/Stream/StreamTunnel.php:89-100 | a saturated tunnel whose flush empties the buffer leaves saturation and re-registers READ for a readable source |
| StreamTunnels.UnsaturatedFlushStays | src/Zeus/IO/Stream/StreamTunnel.php:89-92 | an unsaturated tunnel whose flush drains stays unsaturated and changes no interest |
| StreamTunnels.SaturatingCallsDropReadOnlySource | src/Zeus/IO/Stream/StreamTunnel.php:107-112 | the selector calls of a saturating step succeed and drop the key of an open source that had no WRITE interest |
| StreamTunnels.DesaturationCanThrow | src/Zeus/IO/Stream/StreamTunnel.php:89-112 | for an open source registered for READ only, the saturating step's calls drop the source key, and the desaturating step at the source's end then throws an I/O error on the selector while reporting success itself |
| StreamTunnels.SaturationFollowsFlush | src/Zeus/IO/Stream/StreamTunnel.php:75-114 | the tunnel becomes saturated only with data left buffered, ending in a READ cancel, and leaves saturation only with the buffer empty, ending in a WRITE cancel; its id never changes |
| PhpStrings.IntCast | src/Zeus/IO/SocketServer.php:173 | no contract of its own: `(int)` of a string; stated through the rows of `PhpStrings.IntCastOfIntToString` and `PhpStrings.PortRoundTrip` |
| PhpStrings.IntToString | src/Zeus/IO/SocketServer.php:160 | contains no ':'; that `(int)` reads it back is the row of `PhpStrings.IntCastOfIntToString` |
| PhpStrings.LastSegment | src/Zeus/IO/SocketServer.php:169-173 | the last piece of `explode(':')` holds no ':' and is the suffix after the last ':' (or the whole string) |
| PhpStrings.LastSegmentAfterColon | src/Zeus/IO/SocketServer.php:169-173 | the last piece of "host:digits" is the digits |
| PhpStrings.IntCastOfIntToString | src/Zeus/IO/SocketServer.php:160-173 | `(int)` reads back every integer written with `.` |
| PhpStrings.PortRoundTrip | src/Zeus/IO/SocketServer.php:160-173 | the port after the last ':' of "host:port" reads back as the port |
| SocketServers.GetLocalAddress | src/Zeus/IO/SocketServer.php:253-256 | no contract of its own; stated by the row of `SocketServers.LocalAddressShowsPort` |
| SocketServers.LocalAddressShowsPort | src/Zeus/IO/SocketServer.php:253-256 | the local address starts with the host and, for a non-zero port, ends in ':' and the port, which reads back as `getLocalPort` |
| SocketServers.ListenHost | src/Zeus/IO/SocketServer.php:156-158 | a falsy host becomes "tcp://0.0.0.0"; a truthy one is kept |
| SocketServers.CreateServer | src/Zeus/IO/SocketServer.php:144-177 | the OS is asked for "host:port" on the defaulted host, with the stored backlog, reuse-address and no-delay settings as socket options; failure is a socket error that keeps the defaulted host; success binds, stores the resource, and for port 0 reads the port from the socket's name |
| SocketServers.NewServer | src/Zeus/IO/SocketServer.php:63-75 | a negative port gives an unbound server on port -1; otherwise the server is bound, or the constructor throws iff listening with the backlog and both options off fails; a falsy backlog keeps 5 |
| SocketServers.Bind | src/Zeus/IO/SocketServer.php:124-142 | a bound server refuses; otherwise host and backlog are stored first; with no port given or stored it refuses; success iff the OS accepts the effective port with the new backlog and the stored options, after which it is bound |
| SocketServers.BindToAnyPort | src/Zeus/IO/SocketServer.php:167-174 | binding to port 0 stores the port the OS reports at the end of the socket's name |
| SocketServers.BindOnce | src/Zeus/IO/SocketServer.php:126-128 | a successfully bound server refuses every later bind and is unchanged |
| SocketServers.SetReuseAddress | src/Zeus/IO/SocketServer.php:77-94 | allowed iff unbound and open, then only the reuse flag changes |
| SocketServers.SetTcpNoDelay | src/Zeus/IO/SocketServer.php:106-117 | allowed iff unbound and open, then only the no-delay flag changes |
| SocketServers.OptionsSurviveBind | src/Zeus/IO/SocketServer.php:144-162 | reuse-address and no-delay set before binding are the socket options the OS is asked to listen with, bind succeeds exactly when the OS accepts them, and they are still reported after binding |
| SocketServers.GetSocket | src/Zeus/IO/SocketServer.php:276-283 | the socket object is created once, over the listening resource, open and bidirectional; without a resource it is an invalid argument; a bound, consistent server always has one |
| SocketServers.GetSocketKeepsObject | src/Zeus/IO/SocketServer.php:278-282 | asking again returns the same object |
| SocketServers.SetOption | src/Zeus/IO/SocketServer.php:210-221 | refused on an unbound or closed server; otherwise it succeeds iff the sockets extension is present |
| SocketServers.SetSoTimeout | src/Zeus/IO/SocketServer.php:263-274 | refused on an unbound server or a closed socket object; otherwise `getSoTimeout` returns the new value |
| SocketServers.Close | src/Zeus/IO/SocketServer.php:223-236 | refused on an unbound or closed server; otherwise the socket object is closed and the server reports closed, even when `doClose` throws |
| SocketServers.CloseTwiceFails | src/Zeus/IO/SocketServer.php:225-231 | a second close always fails and changes nothing |
| SocketServers.StaysBound | src/Zeus/IO/SocketServer.php:176 | no operation unbinds a bound server, and options are refused from then on |
| SocketServers.AcceptTimeout | src/Zeus/IO/SocketServer.php:183-186 | the accept timeout is the socket timeout in seconds when positive, else 0 |
| SocketServers.Accept | src/Zeus/IO/SocketServer.php:188-204 | without a listening resource, or with it closed, accepting fails with a timeout error; otherwise the OS is asked on the listening resource, no connection in time is a timeout error, and a connection becomes a fresh open socket stream on it |
| SocketServers.AcceptOnlyWhileListening | src/Zeus/IO/SocketServer.php:188-194 | only a bound, open server returns a connection, and such a server has a listening resource and succeeds exactly when a connection arrives on it in time |
| SocketServers.ClosedServerCannotAccept | src/Zeus/IO/SocketServer.php:223-236 | after a successful close, accepting fails whatever the OS would answer |
| SocketServers.Register | src/Zeus/IO/SocketServer.php:290-293 | the server's socket object is registered with the selector; for ACCEPT on a bound, open server this always succeeds |

## Left out

- The operating system: every call into it (`stream_select`, `fwrite`, `stream_socket_recvfrom`, `stream_socket_server`, `stream_socket_accept`, `stream_get_meta_data`, `feof`, …) is an input of the operation that makes it.
- HHVM branches (`defined("HHVM_VERSION")`): the model is of PHP proper.
- The selector's microsecond timeout conversion for `stream_select` is floating point and only shapes the OS call; it is not modelled.
- Error message texts and error codes: only the kind of error is kept.
- `FileStream`, `PipeStream` and `AbstractStream::open`: outside the core.
- `SocketStream::doClose`'s drain loop (shutdown, non-blocking, bounded reads before `fclose`) reaches the OS only; its outcome is the `doCloseFails` input.
- `SocketStream::setOption`'s call to `socket_set_option` has no effect the model can see; only its preconditions are kept.
- Peer names, `getRemoteAddress` and a stream's own `getLocalAddress` query the OS and are left out.
- A stream's resource closed from outside (`fclose` by another holder) is not modelled: `isClosed` is the stream's own flag.
- `Selector::getSelectionKeys` returns key objects. The model keeps only the resource ids at the selected positions (`SelectedIds`, stated in `Selectors.SelectReady`). A key object that stays in the list after its stream was pruned is therefore represented only by its id. Nothing is claimed about the list after pruning beyond which positions `Selectors.Prune` drops, which can leave a closed stream's id in it (`Selectors.PruneDropsByPosition`).
- `SocketServers.Accept`: a null or closed resource is reported as the timeout error PHP 7 gives, after the suppressed warning of `stream_socket_accept`; under PHP 8 that call throws a `TypeError` instead, which the model does not distinguish.
- Selection keys are values. `register` returns a copy of the key the selector holds, so a change made through it (`attach`, `setInterestOps`, a ready setter) does not reach the selector, whereas in PHP the caller and the selector share one key object. `Selectors.Valid`'s clause that every id in an interest set has that bit in its key's interest mask relies on this: a PHP caller can break it through the key's public `setInterestOps`.
- `Streams.Read`: the two EOF probes `doRead` makes are collapsed into one input.
- `PhpStrings.IntCastOfIntToString`: `(int)` saturation at the 64-bit limits and the exponent forms PHP accepts (`"1e3"`) are not modelled, because a port read back from a socket name is a short decimal.
- `StreamTunnels.SaturationFollowsFlush`: the effects are selector requests listed in order, and the step itself does not apply them, because the tunnel sees only its two keys. `StreamTunnels.ApplyEffects` applies them separately.
- `StreamTunnels.WriteStep`: the step's result does not include failures of the selector calls it asks for. In the source such a call throws out of `tunnel()`; `StreamTunnels.DesaturationCanThrow` shows one case.
- `StreamTunnels.SuccessfulFlushDesaturates`: its `Ok` result is the tunnel's own; the `cancel(OP_WRITE)` it asks for can still throw, as `StreamTunnels.DesaturationCanThrow` shows. Keys are identified by stream id, so the new key a re-registration creates after the old one was dropped is not told apart from the key the tunnel keeps.
- `Selectors.Select`: it requires the poll to report only watched streams, as `stream_select` does. The count is the number of distinct ready ids. The source counts array entries when only one side reported anything, which is the same number because `stream_select` lists each stream once.

=== FILE: common.dfy ===
/** Shared result and error types for the readiness library model.

    The library reports failures by throwing exceptions of a few classes; the
    model distinguishes those classes as error kinds and returns them in a
    `Result`. Operations that change their object before they throw return an
    `Outcome`, which carries the state the object is left in as well.
 */
module Common {

  /** The exception classes the core throws, as error kinds. */
  datatype Error =
    | IOError            // Zeus\IO\Exception\IOException
    | SocketError        // Zeus\IO\Exception\SocketException
    | TimeoutError       // Zeus\IO\Exception\SocketTimeoutException
    | EOFError           // Zeus\IO\Exception\EOFException
    | UnsupportedError   // Zeus\IO\Exception\UnsupportedOperationException
    | InvalidArgument    // InvalidArgumentException
    | OutOfRange         // OutOfRangeException
    | LogicError         // LogicException

  datatype Result<+T> = Ok(value: T) | Err(error: Error)

  datatype Option<+T> = None | Some(value: T)

  /** The state an object is left in by a call, together with what the call
      returned or threw. */
  datatype Outcome<+S, +T> = Outcome(state: S, result: Result<T>)

  /** Bytes are opaque payload. */
  type Bytes = seq<bv8>

  /** The set of elements of a sequence. */
  function Elems<T>(s: seq<T>): set<T>
  {
    set x | x in s
  }

  /** Only the empty sequence has no elements. */
  lemma ElemsEmpty<T>(s: seq<T>)
    ensures Elems(s) == {} <==> s == []
  {
    if s != [] {
      assert s[0] in Elems(s);
    }
  }
}

=== FILE: php_strings.dfy ===
/** The PHP string conversions the server's address handling relies on:
    `(int)` of a string, `(string)` of an integer, the last element of
    `explode(":", $s)`, and PHP's truth value of a string.
 */
module PhpStrings {

  predicate IsDigit(c: char) {
    '0' <= c <= '9'
  }

  /** PHP's truth value of a string: only "" and "0" are false. */
  predicate Truthy(s: string) {
    s != "" && s != "0"
  }

  // ------------------------------------------------------ explode, end

  /** `end(explode(":", $s))`: what follows the last ':' of `s`, or all of
      `s` when it has none. */
  function LastSegment(s: string): (r: string)
    ensures ':' !in r
    ensures |r| <= |s| && r == s[|s| - |r|..]
    ensures r == s || s[|s| - |r| - 1] == ':'
    decreases |s|
  {
    if s == [] then []
    else if s[|s| - 1] == ':' then []
    else
      var pre := s[..|s| - 1];
      var init := LastSegment(pre);
      var r := init + [s[|s| - 1]];
      assert r == s[|s| - |r|..] by {
        assert pre[|pre| - |init|..] == s[|s| - |r|..|s| - 1];
      }
      assert init != pre ==> s[|s| - |r| - 1] == pre[|pre| - |init| - 1];
      r
  }

  /** The segment after a ':' that is followed by no other ':' is exactly
      what follows it. */
  lemma {:induction false} LastSegmentAfterColon(prefix: string, segment: string)
    requires ':' !in segment
    ensures LastSegment(prefix + ":" + segment) == segment
    decreases |segment|
  {
    var s := prefix + ":" + segment;
    if segment == [] {
      assert s[|s| - 1] == ':';
    } else {
      var init := segment[..|segment| - 1];
      assert s[..|s| - 1] == prefix + ":" + init;
      assert s[|s| - 1] == segment[|segment| - 1];
      LastSegmentAfterColon(prefix, init);
      assert init + [segment[|segment| - 1]] == segment;
    }
  }

  // --------------------------------------------------------------- (int)

  /** The longest prefix of `s` made of decimal digits. */
  function LeadingDigits(s: string): (r: string)
    ensures |r| <= |s| && r == s[..|r|]
    ensures forall i | 0 <= i < |r| :: IsDigit(r[i])
    ensures |r| < |s| ==> !IsDigit(s[|r|])
    decreases |s|
  {
    if s == [] || !IsDigit(s[0]) then []
    else [s[0]] + LeadingDigits(s[1..])
  }

  /** The value of a string of decimal digits, most significant first. */
  function DigitsValue(ds: string): nat
    requires forall i | 0 <= i < |ds| :: IsDigit(ds[i])
    decreases |ds|
  {
    if ds == [] then 0
    else DigitsValue(ds[..|ds| - 1]) * 10 + DigitValue(ds[|ds| - 1])
  }

  function DigitValue(c: char): (d: nat)
    requires IsDigit(c)
    ensures d < 10
  {
    c as int - '0' as int
  }

  /** Leading whitespace as PHP's numeric-string rules skip it. */
  predicate IsSpace(c: char) {
    c == ' ' || c == '\t' || c == '\n' || c == '\r' || c == '\U{000B}' || c == '\U{000C}'
  }

  function TrimLeft(s: string): (r: string)
    ensures |r| <= |s| && r == s[|s| - |r|..]
    ensures r != [] ==> !IsSpace(r[0])
    decreases |s|
  {
    if s != [] && IsSpace(s[0]) then TrimLeft(s[1..]) else s
  }

  /** `(int) $s`: leading whitespace is skipped, then an optional sign and
      the longest run of digits give the value; a string without leading
      digits is 0. */
  function IntCast(s: string): int {
    var t := TrimLeft(s);
    if t != [] && (t[0] == '-' || t[0] == '+') then
      var v: int := DigitsValue(LeadingDigits(t[1..]));
      if t[0] == '-' then -v else v
    else DigitsValue(LeadingDigits(t))
  }

  // ------------------------------------------------------------ (string)

  function DigitChar(d: nat): (c: char)
    requires d < 10
    ensures IsDigit(c) && DigitValue(c) == d
  {
    ('0' as int + d) as char
  }

  /** The decimal digits of a natural number, without leading zeros. */
  function Decimal(n: nat): (r: string)
    ensures r != [] && IsDigit(r[0])
    ensures forall i | 0 <= i < |r| :: IsDigit(r[i])
    decreases n
  {
    if n < 10 then [DigitChar(n)] else Decimal(n / 10) + [DigitChar(n % 10)]
  }

  /** `(string) $i` (and the `.` concatenation of an int): a minus sign for
      negative values, then the digits. */
  function IntToString(i: int): (r: string)
    ensures ':' !in r
  {
    if i < 0 then "-" + Decimal(-i) else Decimal(i)
  }

  /** Reading the digits of `n` back gives `n`. */
  lemma {:induction false} DecimalValue(n: nat)
    ensures DigitsValue(Decimal(n)) == n
    decreases n
  {
    if n >= 10 {
      var r := Decimal(n);
      assert r[..|r| - 1] == Decimal(n / 10);
      DecimalValue(n / 10);
    }
  }

  /** A string made of digits only is its own longest digit prefix. */
  lemma AllDigitsLead(ds: string)
    requires forall i | 0 <= i < |ds| :: IsDigit(ds[i])
    ensures LeadingDigits(ds) == ds
  {
  }

  /** `(int)` undoes `(string)` on every integer. */
  lemma IntCastOfIntToString(i: int)
    ensures IntCast(IntToString(i)) == i
  {
    if i < 0 {
      NegativeReadsBack(-i);
    } else {
      NaturalReadsBack(i);
    }
  }

  lemma NaturalReadsBack(n: nat)
    ensures IntCast(Decimal(n)) == n
  {
    var ds := Decimal(n);
    assert !IsSpace(ds[0]) && ds[0] != '-' && ds[0] != '+';
    assert TrimLeft(ds) == ds;
    AllDigitsLead(ds);
    DecimalValue(n);
  }

  lemma NegativeReadsBack(n: nat)
    requires n > 0
    ensures IntCast("-" + Decimal(n)) == -(n as int)
  {
    var ds := Decimal(n);
    var s := "-" + ds;
    DecimalValue(n);
    AllDigitsLead(ds);
    assert TrimLeft(s) == s;
    assert s[1..] == ds;
  }

  /** The port written after the last ':' of an address reads back as that
      port. */
  lemma PortRoundTrip(host: string, port: int)
    ensures IntCast(LastSegment(host + ":" + IntToString(port))) == port
  {
    LastSegmentAfterColon(host, IntToString(port));
    IntCastOfIntToString(port);
  }
}

=== FILE: selection_key.dfy ===
/** The per-(stream, selector) state of `SelectionKey`: an interest bitmask,
    a ready bitmask and an opaque attachment.

    The ready mask is only ever changed by an XOR assignment on a PHP
    integer, a 64-bit two's-complement word, so it is kept as a `bv64` and
    the assignment is written exactly as the source does it. The interest
    mask is only ever stored through `setInterestOps`' range check, so it is
    an integer in 0 .. OP_ALL (`Ops`). The back-reference to the selector
    is left out (the selector owns the keys in this model) and the stream is
    identified by its resource id.
 */
module SelectionKeys {
  import opened Common

  /** Operation codes (SelectionKey::OP_*). */
  const OP_READ: int := 1
  const OP_WRITE: int := 2
  const OP_ACCEPT: int := 4
  const OP_ALL: int := 7

  /** An interest mask as `setInterestOps` admits it. */
  type Ops = x: int | 0 <= x <= OP_ALL

  /** `$ops & $op` for a mask and one operation code, read as a truth value. */
  predicate HasOp(ops: Ops, op: int)
    requires op == OP_READ || op == OP_WRITE || op == OP_ACCEPT
  {
    (ops / op) % 2 == 1
  }

  /** A mask is the sum of the operation codes it contains. */
  lemma OpsFromBits(x: Ops)
    ensures x == (if HasOp(x, OP_ACCEPT) then OP_ACCEPT else 0)
               + (if HasOp(x, OP_WRITE) then OP_WRITE else 0)
               + (if HasOp(x, OP_READ) then OP_READ else 0)
  {
  }

  /** `$a | $b` on two masks. */
  function Union(a: Ops, b: Ops): (r: Ops)
    ensures HasOp(r, OP_READ) <==> HasOp(a, OP_READ) || HasOp(b, OP_READ)
    ensures HasOp(r, OP_WRITE) <==> HasOp(a, OP_WRITE) || HasOp(b, OP_WRITE)
    ensures HasOp(r, OP_ACCEPT) <==> HasOp(a, OP_ACCEPT) || HasOp(b, OP_ACCEPT)
  {
    (if HasOp(a, OP_ACCEPT) || HasOp(b, OP_ACCEPT) then OP_ACCEPT else 0)
    + (if HasOp(a, OP_WRITE) || HasOp(b, OP_WRITE) then OP_WRITE else 0)
    + (if HasOp(a, OP_READ) || HasOp(b, OP_READ) then OP_READ else 0)
  }

  /** A PHP integer as its 64-bit two's-complement pattern. */
  type Word = bv64

  /** `$readyOps & $op` read as a PHP truth value: `HasOp` on the ready
      mask's word. */
  predicate Has(ops: Word, op: int)
    requires op == OP_READ || op == OP_WRITE || op == OP_ACCEPT
  {
    ops & (op as Word) != 0
  }

  /** The word test and the integer test agree on every mask in range. */
  lemma HasIsHasOp(x: Ops, op: int)
    requires op == OP_READ || op == OP_WRITE || op == OP_ACCEPT
    ensures Has(x as Word, op) <==> HasOp(x, op)
  {
    var w := x as Word;
    assert w < 8;
    assert w & 1 == w % 2 && w & 2 == (w / 2 % 2) * 2 && w & 4 == (w / 4 % 2) * 4;
  }

  /** Plain "set or clear the bits of `flag`, keep the others": the meaning
      of the source's XOR assignment. */
  function SetOrClear(ops: Word, on: bool, flag: Word): Word {
    if on then ops | flag else ops & !flag
  }

  /** `$ops ^= (-$bit ^ $ops) & $flag` with `$bit = (int) $on`. */
  function XorAssign(ops: Word, on: bool, flag: Word): Word {
    var bit: Word := if on then 1 else 0;
    ops ^ ((((0 as Word) - bit) ^ ops) & flag)
  }

  /** The XOR assignment is exactly "set or clear one flag, keep the rest". */
  lemma XorAssignIsSetOrClear(ops: Word, on: bool, flag: Word)
    ensures XorAssign(ops, on, flag) == SetOrClear(ops, on, flag)
  {
    if on {
      assert XorAssign(ops, on, flag) == ops ^ ((((0 as Word) - 1) ^ ops) & flag);
      XorSet(ops, flag);
    } else {
      assert XorAssign(ops, on, flag) == ops ^ ((((0 as Word) - 0) ^ ops) & flag);
      XorClear(ops, flag);
    }
  }

  /** `-1` is all ones, so the XOR assignment with bit 1 sets the flag. */
  lemma XorSet(ops: Word, flag: Word)
    ensures ops ^ ((((0 as Word) - 1) ^ ops) & flag) == ops | flag
  {
    assert ((0 as Word) - 1) ^ ops == !ops;
  }

  /** With bit 0 the XOR assignment clears the flag. */
  lemma XorClear(ops: Word, flag: Word)
    ensures ops ^ ((((0 as Word) - 0) ^ ops) & flag) == ops & !flag
  {
    assert ((0 as Word) - 0) ^ ops == ops;
  }

  /** Setting or clearing one of the three low flags changes that flag only,
      and keeps a mask below 8 below 8. */
  lemma SetOrClearFlag(ops: Word, on: bool, flag: Word, other: Word)
    requires flag == 1 || flag == 2 || flag == 4
    requires other == 1 || other == 2 || other == 4
    ensures (SetOrClear(ops, on, flag) & flag != 0) == on
    ensures other != flag ==> (SetOrClear(ops, on, flag) & other) == (ops & other)
    ensures ops < 8 ==> SetOrClear(ops, on, flag) < 8
  {
    if on {
      SetFlag(ops, flag, other);
    } else {
      ClearFlag(ops, flag, other);
    }
  }

  lemma SetFlag(ops: Word, flag: Word, other: Word)
    requires flag == 1 || flag == 2 || flag == 4
    requires other == 1 || other == 2 || other == 4
    ensures (ops | flag) & flag != 0
    ensures other != flag ==> ((ops | flag) & other) == (ops & other)
    ensures ops < 8 ==> (ops | flag) < 8
  {
    if ops < 8 {
      assert ops & !7 == 0;
      assert (ops | flag) & !7 == 0;
    }
  }

  lemma ClearFlag(ops: Word, flag: Word, other: Word)
    requires flag == 1 || flag == 2 || flag == 4
    requires other == 1 || other == 2 || other == 4
    ensures (ops & !flag) & flag == 0
    ensures other != flag ==> ((ops & !flag) & other) == (ops & other)
    ensures ops < 8 ==> (ops & !flag) < 8
  {
    if ops < 8 {
      assert ops & !7 == 0;
      assert (ops & !flag) & !7 == 0;
    }
  }

  datatype Key<A> = Key(
    streamId: nat,         // resource id of the registered stream
    readyOps: Word,
    interestOps: Ops,      // only ever stored through setInterestOps' range check
    attachment: Option<A>  // PHP null until attach() is called
  )

  /** `new SelectionKey($stream, $selector)`. */
  function NewKey<A>(streamId: nat): (k: Key<A>)
    ensures ReadyOps(k) == 0 && InterestOps(k) == 0
    ensures !IsReadable(k) && !IsWritable(k) && !IsAcceptable(k)
    ensures GetAttachment(k).None? && k.streamId == streamId
  {
    Key(streamId, 0, 0, None)
  }

  function ReadyOps<A>(k: Key<A>): int {
    k.readyOps as int
  }

  function InterestOps<A>(k: Key<A>): int {
    k.interestOps
  }

  predicate IsReadable<A>(k: Key<A>) {
    Has(k.readyOps, OP_READ)
  }

  predicate IsWritable<A>(k: Key<A>) {
    Has(k.readyOps, OP_WRITE)
  }

  predicate IsAcceptable<A>(k: Key<A>) {
    Has(k.readyOps, OP_ACCEPT)
  }

  /** The three ready predicates read exactly the three low bits of a ready
      mask in range: the mask is their weighted sum. */
  lemma ReadyOpsFromFlags<A>(k: Key<A>)
    requires k.readyOps < 8
    ensures ReadyOps(k) ==
              (if IsAcceptable(k) then OP_ACCEPT else 0)
            + (if IsWritable(k) then OP_WRITE else 0)
            + (if IsReadable(k) then OP_READ else 0)
  {
    var w := k.readyOps;
    assert w == (w & 4) | (w & 2) | (w & 1);
    assert (w & 4) as int + (w & 2) as int + (w & 1) as int == w as int;
  }

  function SetReadable<A>(k: Key<A>, on: bool): (r: Key<A>)
    ensures r.readyOps == SetOrClear(k.readyOps, on, OP_READ as Word)
    ensures IsReadable(r) == on
    ensures IsWritable(r) == IsWritable(k) && IsAcceptable(r) == IsAcceptable(k)
    ensures r == k.(readyOps := r.readyOps)
    ensures k.readyOps < 8 ==> r.readyOps < 8
  {
    XorAssignIsSetOrClear(k.readyOps, on, OP_READ as Word);
    SetOrClearFlag(k.readyOps, on, OP_READ as Word, OP_WRITE as Word);
    SetOrClearFlag(k.readyOps, on, OP_READ as Word, OP_ACCEPT as Word);
    k.(readyOps := XorAssign(k.readyOps, on, OP_READ as Word))
  }

  function SetWritable<A>(k: Key<A>, on: bool): (r: Key<A>)
    ensures r.readyOps == SetOrClear(k.readyOps, on, OP_WRITE as Word)
    ensures IsWritable(r) == on
    ensures IsReadable(r) == IsReadable(k) && IsAcceptable(r) == IsAcceptable(k)
    ensures r == k.(readyOps := r.readyOps)
    ensures k.readyOps < 8 ==> r.readyOps < 8
  {
    XorAssignIsSetOrClear(k.readyOps, on, OP_WRITE as Word);
    SetOrClearFlag(k.readyOps, on, OP_WRITE as Word, OP_READ as Word);
    SetOrClearFlag(k.readyOps, on, OP_WRITE as Word, OP_ACCEPT as Word);
    k.(readyOps := XorAssign(k.readyOps, on, OP_WRITE as Word))
  }

  function SetAcceptable<A>(k: Key<A>, on: bool): (r: Key<A>)
    ensures r.readyOps == SetOrClear(k.readyOps, on, OP_ACCEPT as Word)
    ensures IsAcceptable(r) == on
    ensures IsReadable(r) == IsReadable(k) && IsWritable(r) == IsWritable(k)
    ensures r == k.(readyOps := r.readyOps)
    ensures k.readyOps < 8 ==> r.readyOps < 8
  {
    XorAssignIsSetOrClear(k.readyOps, on, OP_ACCEPT as Word);
    SetOrClearFlag(k.readyOps, on, OP_ACCEPT as Word, OP_READ as Word);
    SetOrClearFlag(k.readyOps, on, OP_ACCEPT as Word, OP_WRITE as Word);
    k.(readyOps := XorAssign(k.readyOps, on, OP_ACCEPT as Word))
  }

  /** One call of one of the three ready-bit setters. */
  datatype ReadyFlag = Readable | Writable | Acceptable

  function SetReady<A>(k: Key<A>, flag: ReadyFlag, on: bool): Key<A> {
    match flag
    case Readable => SetReadable(k, on)
    case Writable => SetWritable(k, on)
    case Acceptable => SetAcceptable(k, on)
  }

  lemma SetReadyInRange<A>(k: Key<A>, flag: ReadyFlag, on: bool)
    requires k.readyOps < 8
    ensures SetReady(k, flag, on).readyOps < 8
    ensures SetReady(k, flag, on) == k.(readyOps := SetReady(k, flag, on).readyOps)
  {
    match flag
    case Readable =>
    case Writable =>
    case Acceptable =>
  }

  /** A sequence of setter calls, applied left to right. */
  function SetReadyAll<A>(k: Key<A>, calls: seq<(ReadyFlag, bool)>): Key<A>
    decreases |calls|
  {
    if calls == [] then k
    else SetReadyAll(SetReady(k, calls[0].0, calls[0].1), calls[1..])
  }

  /** The ready mask stays within 0 .. OP_ALL under any sequence of setter
      calls, and only the ready mask changes. */
  lemma {:induction false} SetReadyAllInRange<A>(k: Key<A>, calls: seq<(ReadyFlag, bool)>)
    requires k.readyOps < 8
    ensures SetReadyAll(k, calls).readyOps < 8
    ensures SetReadyAll(k, calls) == k.(readyOps := SetReadyAll(k, calls).readyOps)
    decreases |calls|
  {
    if calls != [] {
      var k' := SetReady(k, calls[0].0, calls[0].1);
      SetReadyInRange(k, calls[0].0, calls[0].1);
      SetReadyAllInRange(k', calls[1..]);
      assert SetReadyAll(k, calls) == SetReadyAll(k', calls[1..]);
    }
  }

  /** The ready predicate of one flag. */
  predicate IsSet<A>(k: Key<A>, flag: ReadyFlag) {
    match flag
    case Readable => IsReadable(k)
    case Writable => IsWritable(k)
    case Acceptable => IsAcceptable(k)
  }

  /** A call on one flag leaves the other two alone. */
  lemma SetReadyKeepsOthers<A>(k: Key<A>, flag: ReadyFlag, on: bool, other: ReadyFlag)
    requires other != flag
    ensures IsSet(SetReady(k, flag, on), other) == IsSet(k, other)
  {
  }

  /** Calls that all name other flags leave `flag` as it was. */
  lemma {:induction false} OtherCallsKeep<A>(k: Key<A>, calls: seq<(ReadyFlag, bool)>, flag: ReadyFlag)
    requires forall j | 0 <= j < |calls| :: calls[j].0 != flag
    ensures IsSet(SetReadyAll(k, calls), flag) == IsSet(k, flag)
    decreases |calls|
  {
    if calls != [] {
      var k' := SetReady(k, calls[0].0, calls[0].1);
      SetReadyKeepsOthers(k, calls[0].0, calls[0].1, flag);
      OtherCallsKeep(k', calls[1..], flag);
    }
  }

  /** The last call for a flag decides that flag: when call `i` sets `flag`
      to `on` and no later call names `flag`, the flag ends as `on`, whatever
      the calls on the other flags. */
  lemma {:induction false} SetReadyAllLastWins<A>(k: Key<A>, calls: seq<(ReadyFlag, bool)>, i: nat, flag: ReadyFlag, on: bool)
    requires i < |calls| && calls[i] == (flag, on)
    requires forall j | i < j < |calls| :: calls[j].0 != flag
    ensures IsSet(SetReadyAll(k, calls), flag) == on
    decreases |calls|
  {
    var k' := SetReady(k, calls[0].0, calls[0].1);
    if i == 0 {
      assert IsSet(k', flag) == on;
      OtherCallsKeep(k', calls[1..], flag);
    } else {
      SetReadyAllLastWins(k', calls[1..], i - 1, flag, on);
    }
  }

  function Attach<A>(k: Key<A>, attachment: A): (r: Key<A>)
    ensures GetAttachment(r) == Some(attachment)
    ensures r.readyOps == k.readyOps && r.interestOps == k.interestOps && r.streamId == k.streamId
  {
    k.(attachment := Some(attachment))
  }

  function GetAttachment<A>(k: Key<A>): Option<A> {
    k.attachment
  }

  /** `setInterestOps`: only a mask within 0 .. OP_ALL is stored; any other
      value is a LogicException and leaves the key as it was. */
  function SetInterestOps<A>(k: Key<A>, ops: int): (r: Result<Key<A>>)
    ensures r.Ok? <==> 0 <= ops <= OP_ALL
    ensures r.Ok? ==> InterestOps(r.value) == ops && r.value == k.(interestOps := r.value.interestOps)
    ensures r.Err? ==> r.error == LogicError
  {
    if ops >= 0 && ops <= OP_ALL then Ok(k.(interestOps := ops))
    else Err(LogicError)
  }
}

=== FILE: selector.dfy ===
/** `Selector`: a registry from resource id to selection key, one interest
    set per operation, and the keys found ready by the last poll.

    The poll itself (`stream_select`) is an oracle: `Select` is given what it
    returned. Streams are seen through a `StreamView`, the answers their
    `isReadable`/`isWritable`/`isClosed` gave at the time of the call.

    `selectedKeys` is a PHP list (the result of `array_values`), so it is kept
    as a map from list position to resource id. The source removes entries
    from it with `unset($this->selectedKeys[$resourceId])`, which drops the
    entry at the POSITION equal to the resource id; the model does the same.
    `selectedResources` is only written after the constructor, except for its
    ACCEPT slot, which the poll result never fills; it is not stored, and the
    test of that slot in `unregister` is always true.
 */
module Selectors {
  import opened Common
  import opened SelectionKeys

  /** A stream as the selector sees it during one call. */
  datatype StreamView = StreamView(id: nat, readable: bool, writable: bool, closed: bool)

  datatype Selector<A> = Selector(
    keys: map<nat, Key<A>>,  // selectionKeys (and streams, which has the same ids)
    readIds: set<nat>,       // streamResources[OP_READ]
    writeIds: set<nat>,      // streamResources[OP_WRITE]
    acceptIds: set<nat>,     // streamResources[OP_ACCEPT]
    selected: map<nat, nat>  // selectedKeys: list position -> resource id
  )

  /** What one `stream_select` call reported. */
  datatype Poll =
    | Interrupted                            // false, "Interrupted system call"
    | Failed                                 // false, any other error
    | Ready(read: seq<nat>, write: seq<nat>) // the ids left in $read and $write

  function NewSelector<A>(): (s: Selector<A>)
    ensures Valid(s) && s.keys == map[] && s.selected == map[]
  {
    Selector(map[], {}, {}, {}, map[])
  }

  /** The invariant every reachable selector keeps: every id in a per-operation
      interest set is registered, and its key's interest mask has that bit;
      every key belongs to the id it is filed under and has a ready mask in
      range. The converse of the interest-bit clause does not hold: a partial
      unregister leaves the key's mask alone. */
  ghost predicate Valid<A>(s: Selector<A>) {
    && (forall id | id in s.keys :: s.keys[id].streamId == id && s.keys[id].readyOps < 8)
    && s.readIds <= s.keys.Keys
    && s.writeIds <= s.keys.Keys
    && s.acceptIds <= s.keys.Keys
    && (forall id | id in s.readIds :: HasOp(s.keys[id].interestOps, OP_READ))
    && (forall id | id in s.writeIds :: HasOp(s.keys[id].interestOps, OP_WRITE))
    && (forall id | id in s.acceptIds :: HasOp(s.keys[id].interestOps, OP_ACCEPT))
  }

  /** `getKeys`: the registered streams, by resource id. */
  function GetKeys<A>(s: Selector<A>): set<nat> {
    s.keys.Keys
  }

  /** The selected keys as a set of resource ids. */
  function SelectedIds<A>(s: Selector<A>): set<nat> {
    s.selected.Values
  }

  // ---------------------------------------------------------------- register

  /** The interest mask a registration leaves on the stream's key: the old
      mask merged with the requested one, or just the request for a new key. */
  function MergedInterest<A>(s: Selector<A>, id: nat, ops: Ops): Ops {
    if id in s.keys then Union(s.keys[id].interestOps, ops) else ops
  }

  /** `register($stream, $operation)`. */
  function Register<A>(s: Selector<A>, v: StreamView, ops: int): (r: Result<(Selector<A>, Key<A>)>)
    ensures !(0 <= ops <= OP_ALL) ==> r == Err(InvalidArgument)
    ensures 0 <= ops <= OP_ALL ==>
              (r.Err? <==> (HasOp(ops, OP_READ) && !v.readable) || (HasOp(ops, OP_WRITE) && !v.writable) || v.closed)
    ensures 0 <= ops <= OP_ALL && r.Err? ==> r.error == IOError
    ensures r.Ok? ==>
              var (s', k) := r.value;
              && 0 <= ops <= OP_ALL
              && s'.keys == s.keys[v.id := k]
              && k.interestOps == MergedInterest(s, v.id, ops)
              && (v.id in s.keys ==> k == s.keys[v.id].(interestOps := k.interestOps))
              && (v.id !in s.keys ==> k.streamId == v.id && k.readyOps == 0 && k.attachment.None?)
              && s'.readIds == (if HasOp(ops, OP_READ) then s.readIds + {v.id} else s.readIds)
              && s'.writeIds == (if HasOp(ops, OP_WRITE) then s.writeIds + {v.id} else s.writeIds)
              && s'.acceptIds == (if HasOp(ops, OP_ACCEPT) then s.acceptIds + {v.id} else s.acceptIds)
              && s'.selected == s.selected
  {
    if ops < 0 || ops > OP_ALL then Err(InvalidArgument)
    else if HasOp(ops, OP_READ) && !v.readable then Err(IOError)
    else if HasOp(ops, OP_WRITE) && !v.writable then Err(IOError)
    else if v.closed then Err(IOError)
    else
      var id := v.id;
      var key := if id in s.keys then s.keys[id] else NewKey(id);
      // setInterestOps' range check always passes: a merge of two masks is a mask.
      var key' := key.(interestOps := MergedInterest(s, id, ops));
      var s' := Selector(
        s.keys[id := key'],
        if HasOp(ops, OP_READ) then s.readIds + {id} else s.readIds,
        if HasOp(ops, OP_WRITE) then s.writeIds + {id} else s.writeIds,
        if HasOp(ops, OP_ACCEPT) then s.acceptIds + {id} else s.acceptIds,
        s.selected);
      Ok((s', key'))
  }

  /** A registration keeps the selector invariant: the new id is filed
      under itself, and every interest set it joins is backed by the merged
      interest mask. */
  lemma RegisterKeepsValid<A>(s: Selector<A>, v: StreamView, ops: int)
    requires Valid(s) && Register(s, v, ops).Ok?
    ensures Valid(Register(s, v, ops).value.0)
  {
    var (s', k) := Register(s, v, ops).value;
    var prior := if v.id in s.keys then s.keys[v.id].interestOps else 0;
    assert k.interestOps == MergedInterest(s, v.id, ops);
    assert HasOp(k.interestOps, OP_READ) <==> HasOp(prior, OP_READ) || HasOp(ops, OP_READ);
    assert HasOp(k.interestOps, OP_WRITE) <==> HasOp(prior, OP_WRITE) || HasOp(ops, OP_WRITE);
    assert HasOp(k.interestOps, OP_ACCEPT) <==> HasOp(prior, OP_ACCEPT) || HasOp(ops, OP_ACCEPT);
  }

  /** Registering the same operations twice is the same as registering them
      once: the key is reused and the merge adds nothing. */
  lemma RegisterTwiceIsOnce<A>(s: Selector<A>, v: StreamView, ops: int)
    requires Register(s, v, ops).Ok?
    ensures Register(Register(s, v, ops).value.0, v, ops) == Register(s, v, ops)
  {
    var (s1, k1) := Register(s, v, ops).value;
    OpsFromBits(k1.interestOps);
    OpsFromBits(MergedInterest(s1, v.id, ops));
    assert MergedInterest(s1, v.id, ops) == k1.interestOps;
    var (s2, k2) := Register(s1, v, ops).value;
    assert k2 == k1;
    assert s2.keys == s1.keys;
  }

  /** Registering READ and then WRITE on a fresh stream leaves READ|WRITE. */
  lemma RegisterReadThenWrite<A>(s: Selector<A>, v: StreamView)
    requires v.id !in s.keys && v.readable && v.writable && !v.closed
    ensures Register(s, v, OP_READ).Ok?
    ensures Register(Register(s, v, OP_READ).value.0, v, OP_WRITE).Ok?
    ensures InterestOps(Register(Register(s, v, OP_READ).value.0, v, OP_WRITE).value.1) == OP_READ + OP_WRITE
  {
    var k := Register(Register(s, v, OP_READ).value.0, v, OP_WRITE).value.1;
    OpsFromBits(k.interestOps);
  }

  // -------------------------------------------------------------- unregister

  /** `unregister($stream, $operation)` for a stream with resource id `id` whose
      `isClosed()` answered `closed`. A stream that is not registered but is
      closed is looked up as `false`, which PHP uses as array key 0. */
  function Unregister<A>(s: Selector<A>, id: nat, closed: bool, ops: int): (r: Result<Selector<A>>)
    ensures !(0 <= ops <= OP_ALL) ==> r == Err(InvalidArgument)
    ensures 0 <= ops <= OP_ALL ==> (r.Err? <==> id !in s.keys && !closed)
    ensures 0 <= ops <= OP_ALL && r.Err? ==> r.error == IOError
    ensures r.Ok? ==>
              var rid := if id in s.keys then id else 0;
              var s' := r.value;
              var readLeft := rid in s.readIds && !HasOp(ops, OP_READ);
              var writeLeft := rid in s.writeIds && !HasOp(ops, OP_WRITE);
              // the key goes when ALL is cancelled or no READ/WRITE interest is left
              var removed := ops == OP_ALL || (!readLeft && !writeLeft);
              && 0 <= ops <= OP_ALL
              && (removed ==> s'.keys == s.keys - {rid} && s'.selected == s.selected - {rid})
              && (removed ==> rid !in s'.readIds && rid !in s'.writeIds && rid !in s'.acceptIds)
              // a surviving key, with its interestOps, is untouched; only the sets change
              && (!removed ==> s'.keys == s.keys && s'.selected == s.selected)
              && (!removed ==> (rid in s'.readIds <==> readLeft) && (rid in s'.writeIds <==> writeLeft))
              && (!removed ==> (rid in s'.acceptIds <==> rid in s.acceptIds && !HasOp(ops, OP_ACCEPT)))
              // no other stream is affected
              && s'.readIds - {rid} == s.readIds - {rid}
              && s'.writeIds - {rid} == s.writeIds - {rid}
              && s'.acceptIds - {rid} == s.acceptIds - {rid}
    ensures Valid(s) && r.Ok? ==> Valid(r.value)
  {
    if ops < 0 || ops > OP_ALL then Err(InvalidArgument)
    else if id !in s.keys && !closed then Err(IOError)
    else
      var rid := if id in s.keys then id else 0;
      var readIds := if HasOp(ops, OP_READ) then s.readIds - {rid} else s.readIds;
      var writeIds := if HasOp(ops, OP_WRITE) then s.writeIds - {rid} else s.writeIds;
      var acceptIds := if HasOp(ops, OP_ACCEPT) then s.acceptIds - {rid} else s.acceptIds;
      // The third test of the source reads selectedResources[OP_ACCEPT], which is never filled.
      if ops == OP_ALL || (rid !in readIds && rid !in writeIds) then
        Ok(Selector(s.keys - {rid}, readIds - {rid}, writeIds - {rid}, acceptIds - {rid}, s.selected - {rid}))
      else
        Ok(s.(readIds := readIds, writeIds := writeIds, acceptIds := acceptIds))
  }

  /** `SelectionKey::cancel($operation)`: the key's selector unregisters the
      key's stream for those operations. */
  function Cancel<A>(s: Selector<A>, k: Key<A>, streamClosed: bool, ops: int): (r: Result<Selector<A>>)
    ensures r == Unregister(s, k.streamId, streamClosed, ops)
  {
    Unregister(s, k.streamId, streamClosed, ops)
  }

  /** Cancelling ALL operations of a registered key always succeeds and takes
      the key out of `getKeys`. */
  lemma CancelAllRemovesKey<A>(s: Selector<A>, k: Key<A>, streamClosed: bool)
    requires k.streamId in s.keys
    ensures Cancel(s, k, streamClosed, OP_ALL).Ok?
    ensures k.streamId !in GetKeys(Cancel(s, k, streamClosed, OP_ALL).value)
  {
  }

  /** An ACCEPT interest alone never keeps a key alive: once READ and WRITE
      interest are gone, any unregister drops the key, even one that leaves
      the ACCEPT interest in place. */
  lemma AcceptInterestAloneDoesNotKeepKey<A>(s: Selector<A>, id: nat, ops: int)
    requires id in s.keys && id in s.acceptIds && 0 <= ops <= OP_ALL && !HasOp(ops, OP_ACCEPT)
    requires id !in s.readIds && id !in s.writeIds
    ensures Unregister(s, id, false, ops).Ok?
    ensures id !in GetKeys(Unregister(s, id, false, ops).value)
    ensures id !in Unregister(s, id, false, ops).value.acceptIds
  {
  }

  /** A partial unregister that keeps the key changes only the per-operation
      sets: the key, and so its interestOps, is exactly as before. */
  lemma PartialUnregisterKeepsInterestOps<A>(s: Selector<A>, id: nat, ops: int)
    requires id in s.keys && 0 <= ops <= OP_ALL && ops != OP_ALL
    requires Unregister(s, id, false, ops).Ok? && id in Unregister(s, id, false, ops).value.keys
    ensures Unregister(s, id, false, ops).value.keys[id] == s.keys[id]
    ensures Unregister(s, id, false, ops).value.keys == s.keys
  {
  }

  /** Unregistering a stream that is closed and not registered is harmless
      when no stream has resource id 0: nothing changes at all. */
  lemma UnregisterUnknownClosedIsNoOp<A>(s: Selector<A>, id: nat, ops: int)
    requires Valid(s) && id !in s.keys && 0 !in s.keys && 0 !in s.selected && 0 <= ops <= OP_ALL
    ensures Unregister(s, id, true, ops) == Ok(s)
  {
    assert s.keys - {0} == s.keys;
    assert s.selected - {0} == s.selected;
    assert s.readIds - {0} == s.readIds && s.writeIds - {0} == s.writeIds && s.acceptIds - {0} == s.acceptIds;
  }

  /** A stream that is closed and not registered is looked up as key 0.
      Resource ids start at 1, so no key is filed under 0, but position 0 of
      the selected list is: unregistering such a stream drops the first
      selected key and changes nothing else. */
  lemma UnknownClosedDropsFirstSelected<A>(s: Selector<A>, id: nat, ops: int)
    requires Valid(s) && id !in s.keys && 0 !in s.keys && 0 in s.selected && 0 <= ops <= OP_ALL
    ensures Unregister(s, id, true, ops).Ok?
    ensures var s' := Unregister(s, id, true, ops).value;
            && s'.selected == s.selected - {0} && 0 !in s'.selected
            && s'.keys == s.keys
  {
    assert s.keys - {0} == s.keys;
  }

  /** The selected list is pruned by position, not by id: unregistering
      stream 1 while it sits at position 0 and stream 2 at position 1 keeps
      stream 1 among the selected keys and drops stream 2. */
  lemma UnregisterPrunesByPosition<A>(s: Selector<A>)
    requires 1 in s.keys && s.selected == map[0 := 1, 1 := 2]
    ensures Unregister(s, 1, false, OP_ALL).Ok?
    ensures 1 !in GetKeys(Unregister(s, 1, false, OP_ALL).value)
    ensures SelectedIds(Unregister(s, 1, false, OP_ALL).value) == {1}
  {
    var s' := Unregister(s, 1, false, OP_ALL).value;
    assert s'.selected == map[0 := 1];
    assert s'.selected.Values == {1} by {
      assert s'.selected[0] == 1;
    }
  }

  // ------------------------------------------------------------------ select

  /** The pruning loop at the start of `select`: every registered stream that
      reports closed leaves the registry, the interest sets, and the selected
      list position equal to its id. */
  function Prune<A>(s: Selector<A>, closed: set<nat>): (p: Selector<A>)
    ensures p.keys.Keys == s.keys.Keys - closed
    ensures forall id | id in p.keys :: p.keys[id] == s.keys[id]
    ensures p.readIds == s.readIds - (closed * s.keys.Keys)
    ensures p.writeIds == s.writeIds - (closed * s.keys.Keys)
    ensures p.acceptIds == s.acceptIds - (closed * s.keys.Keys)
    ensures p.selected == s.selected - (closed * s.keys.Keys)
    ensures Valid(s) ==> Valid(p)
  {
    var gone := s.keys.Keys * closed;
    Selector(s.keys - gone, s.readIds - gone, s.writeIds - gone, s.acceptIds - gone, s.selected - gone)
  }

  /** `select`'s pruning loop also drops selected keys by position: with
      streams 5 and 7 selected at positions 0 and 5 and stream 5 closed,
      stream 5 stays selected and the open stream 7 is dropped. */
  lemma PruneDropsByPosition<A>(s: Selector<A>)
    requires s.keys.Keys == {5, 7} && s.selected == map[0 := 5, 5 := 7]
    ensures SelectedIds(Prune(s, {5})) == {5}
    ensures GetKeys(Prune(s, {5})) == {7}
  {
    var p := Prune(s, {5});
    assert p.selected == map[0 := 5];
    assert p.selected.Values == {5} by {
      assert p.selected[0] == 5;
    }
  }


  /** The ids handed to the poll as the read and the write array. */
  function WatchedRead<A>(s: Selector<A>): set<nat> {
    s.readIds + s.acceptIds
  }

  function WatchedWrite<A>(s: Selector<A>): set<nat> {
    s.writeIds
  }

  /** A poll only reports ids it was asked to watch. */
  predicate PollFits<A>(poll: Poll, s: Selector<A>) {
    poll.Ready? ==> Elems(poll.read) <= WatchedRead(s) && Elems(poll.write) <= WatchedWrite(s)
  }

  /** The poll returned with at least one id left in one of its arrays. */
  predicate SomethingReady(poll: Poll) {
    poll.Ready? && (poll.read != [] || poll.write != [])
  }

  /** A poll only reports registered ids. */
  lemma PollWithinRegistry<A>(p: Selector<A>, poll: Poll)
    requires Valid(p) && PollFits(poll, p) && poll.Ready?
    ensures Elems(poll.read) <= p.keys.Keys && Elems(poll.write) <= p.keys.Keys
  {
  }

  /** A poll asked to watch nothing reports nothing. */
  lemma NothingWatchedNothingReady<A>(p: Selector<A>, poll: Poll)
    requires PollFits(poll, p) && WatchedRead(p) == {} && WatchedWrite(p) == {}
    ensures !SomethingReady(poll)
  {
    if poll.Ready? {
      ElemsEmpty(poll.read);
      ElemsEmpty(poll.write);
    }
  }

  /** The set of ids with any readiness in a poll result. */
  function ReadyIds(poll: Poll): set<nat>
    requires poll.Ready?
  {
    Elems(poll.read) + Elems(poll.write)
  }

  /** `select($timeout)` given the set of registered ids whose stream now
      reports closed and what the poll returned. A failed poll throws, but the
      pruning done before it stays. */
  function Select<A>(s: Selector<A>, closed: set<nat>, poll: Poll): (r: Outcome<Selector<A>, nat>)
    requires Valid(s) && PollFits(poll, Prune(s, closed))
    ensures r.result.Err? <==> poll.Failed? && (WatchedRead(Prune(s, closed)) + WatchedWrite(Prune(s, closed)) != {})
    ensures r.result.Err? ==> r.result.error == IOError && r.state == Prune(s, closed)
    // nothing to watch, an interrupted poll, or a poll with nothing ready: 0, and no recomputation
    ensures r.result.Ok? && !SomethingReady(poll) ==> r.result.value == 0 && r.state == Prune(s, closed)
    ensures r.result.Ok? && SomethingReady(poll) ==>
              r.result.value == |ReadyIds(poll)| && r.state == ComputeSelectedKeys(Prune(s, closed), poll.read, poll.write)
  {
    var p := Prune(s, closed);
    if WatchedRead(p) == {} && WatchedWrite(p) == {} then
      NothingWatchedNothingReady(p, poll);
      Outcome(p, Ok(0))
    else
      match poll
      case Interrupted => Outcome(p, Ok(0))
      case Failed => Outcome(p, Err(IOError))
      case Ready(read, write) =>
        PollWithinRegistry(p, poll);
        if read == [] && write == [] then Outcome(p, Ok(0))
        else
          var count: nat := |Elems(read) + Elems(write)|;
          Outcome(ComputeSelectedKeys(p, read, write), Ok(count))
  }

  /** A poll that reports something ready returns the number of distinct
      ready streams, selects each of them once and recomputes every key's
      ready flags from the poll alone. */
  lemma SelectReady<A>(s: Selector<A>, closed: set<nat>, poll: Poll)
    requires Valid(s) && PollFits(poll, Prune(s, closed))
    requires SomethingReady(poll)
    ensures var r := Select(s, closed, poll);
      && r.result == Ok(|ReadyIds(poll)|)
      && r.result.value > 0
      && r.result.value == |r.state.selected|
      && SelectedIds(r.state) == ReadyIds(poll)
      && RecomputedFrom(Prune(s, closed), poll.read, poll.write, r.state)
  {
    ComputeSelectedKeysSpec(Prune(s, closed), poll.read, poll.write);
    ElemsEmpty(poll.read);
    ElemsEmpty(poll.write);
  }

  /** `select` keeps the selector invariant. */
  lemma SelectKeepsValid<A>(s: Selector<A>, closed: set<nat>, poll: Poll)
    requires Valid(s) && PollFits(poll, Prune(s, closed))
    ensures Valid(Select(s, closed, poll).state)
  {
    if SomethingReady(poll) {
      ComputeSelectedKeysSpec(Prune(s, closed), poll.read, poll.write);
    }
  }

  // ------------------------------------------------- readiness recomputation

  /** What recomputation leaves on one key `k` that was `before`: a ready id
      with ACCEPT interest is acceptable and nothing else; any other id is
      readable when the poll put it in the read pool and writable when it put
      it in the write pool; an id in neither pool is not ready at all. Only the
      ready mask changes. */
  ghost predicate KeyRecomputed<A>(before: Key<A>, acceptInterest: bool, inRead: bool, inWrite: bool, k: Key<A>) {
    && k == before.(readyOps := k.readyOps)
    && k.readyOps < 8
    && (IsAcceptable(k) <==> acceptInterest && (inRead || inWrite))
    && (IsReadable(k) <==> !acceptInterest && inRead)
    && (IsWritable(k) <==> !acceptInterest && inWrite)
  }

  /** The state recomputation leaves behind: every key recomputed from the two
      pools, the registry and the interest sets untouched, and no id at two
      positions of the selected list. */
  ghost predicate RecomputedFrom<A>(p: Selector<A>, read: seq<nat>, write: seq<nat>, s': Selector<A>) {
    && s'.keys.Keys == p.keys.Keys
    && s'.readIds == p.readIds && s'.writeIds == p.writeIds && s'.acceptIds == p.acceptIds
    && (forall id | id in s'.keys && id in p.keys ::
          KeyRecomputed(p.keys[id], id in p.acceptIds, id in read, id in write, s'.keys[id]))
    && (forall i, j | i in s'.selected && j in s'.selected && i != j :: s'.selected[i] != s'.selected[j])
  }

  /** Recomputation keeps the selector invariant. */
  lemma RecomputedKeepsValid<A>(p: Selector<A>, read: seq<nat>, write: seq<nat>, s': Selector<A>)
    requires Valid(p) && RecomputedFrom(p, read, write, s')
    ensures Valid(s')
  {
    forall id | id in s'.keys
      ensures s'.keys[id].streamId == id && s'.keys[id].interestOps == p.keys[id].interestOps
    {
      assert KeyRecomputed(p.keys[id], id in p.acceptIds, id in read, id in write, s'.keys[id]);
    }
  }

  predicate Distinct(xs: seq<nat>) {
    forall i, j | 0 <= i < j < |xs| :: xs[i] != xs[j]
  }

  /** A PHP list (`array_values`) of the given ids. */
  function ListOf(xs: seq<nat>): map<nat, nat> {
    map i | 0 <= i < |xs| :: xs[i]
  }

  /** The first foreach of `computeSelectedKeys`: every ready flag cleared. */
  function ClearReady<A>(k: Key<A>): (r: Key<A>)
    ensures r == k.(readyOps := r.readyOps)
    ensures !IsAcceptable(r) && !IsReadable(r) && !IsWritable(r)
    ensures k.readyOps < 8 ==> r.readyOps < 8
  {
    SetWritable(SetReadable(SetAcceptable(k, false), false), false)
  }

  /** The body of the second foreach of `computeSelectedKeys` for one id of
      the pool with operation code `t`. ACCEPT interest wins over the pool's
      own flag. */
  function MarkOne<A>(k: Key<A>, acceptInterest: bool, t: int): (r: Key<A>)
    requires t == OP_READ || t == OP_WRITE
    ensures r == k.(readyOps := r.readyOps)
    ensures k.readyOps < 8 ==> r.readyOps < 8
    ensures IsAcceptable(r) <==> IsAcceptable(k) || acceptInterest
    ensures IsReadable(r) <==> IsReadable(k) || (!acceptInterest && t == OP_READ)
    ensures IsWritable(r) <==> IsWritable(k) || (!acceptInterest && t == OP_WRITE)
  {
    if acceptInterest then SetAcceptable(k, true)
    // `$type & OP_WRITE` and `$type & OP_READ`: exactly one holds for a pool's code
    else if t == OP_WRITE then SetWritable(k, true)
    else SetReadable(k, true)
  }

  /** The ready flags one pool of the second foreach of `computeSelectedKeys`
      turns on. The registry keeps its ids. */
  function MarkPool<A>(keys: map<nat, Key<A>>, acceptIds: set<nat>, pool: seq<nat>, t: int): (r: map<nat, Key<A>>)
    requires Elems(pool) <= keys.Keys
    requires t == OP_READ || t == OP_WRITE
    ensures r.Keys == keys.Keys
    decreases |pool|
  {
    if pool == [] then keys
    else
      var id := pool[0];
      var keys' := keys[id := MarkOne(keys[id], id in acceptIds, t)];
      assert Elems(pool[1..]) <= keys'.Keys;
      MarkPool(keys', acceptIds, pool[1..], t)
  }

  /** The resource ids `$result` collects over one pool, in insertion order:
      an id already collected is not collected again. */
  function Collect(order: seq<nat>, pool: seq<nat>): seq<nat>
    decreases |pool|
  {
    if pool == [] then order
    else Collect(if pool[0] in order then order else order + [pool[0]], pool[1..])
  }

  /** One pool pass on one key: it only turns ready flags on (ACCEPT alone
      for an id with ACCEPT interest, the pool's own flag otherwise), and only
      for ids in the pool. */
  lemma {:induction false} MarkPoolKey<A>(keys: map<nat, Key<A>>, acceptIds: set<nat>, pool: seq<nat>, t: int, id: nat)
    requires Elems(pool) <= keys.Keys
    requires t == OP_READ || t == OP_WRITE
    requires id in keys && keys[id].readyOps < 8
    ensures var k := MarkPool(keys, acceptIds, pool, t)[id];
      && k == keys[id].(readyOps := k.readyOps)
      && k.readyOps < 8
      && (IsAcceptable(k) <==> IsAcceptable(keys[id]) || (id in acceptIds && id in pool))
      && (IsReadable(k) <==> IsReadable(keys[id]) || (id !in acceptIds && id in pool && t == OP_READ))
      && (IsWritable(k) <==> IsWritable(keys[id]) || (id !in acceptIds && id in pool && t == OP_WRITE))
    decreases |pool|
  {
    if pool != [] {
      var x := pool[0];
      var keys' := keys[x := MarkOne(keys[x], x in acceptIds, t)];
      assert Elems(pool[1..]) <= keys'.Keys;
      MarkPoolKey(keys', acceptIds, pool[1..], t, id);
      assert id in pool <==> id == x || id in pool[1..] by {
        assert pool == [x] + pool[1..];
      }
    }
  }

  /** Collecting a pool appends the pool's ids not yet collected, so no id is
      collected twice. */
  lemma {:induction false} CollectSpec(order: seq<nat>, pool: seq<nat>)
    ensures Elems(Collect(order, pool)) == Elems(order) + Elems(pool)
    ensures Distinct(order) ==> Distinct(Collect(order, pool))
    decreases |pool|
  {
    if pool != [] {
      var x := pool[0];
      var order' := if x in order then order else order + [x];
      assert Elems(order') == Elems(order) + {x};
      assert Distinct(order) ==> Distinct(order');
      assert Elems(pool) == {x} + Elems(pool[1..]) by {
        assert pool == [x] + pool[1..];
      }
      CollectSpec(order', pool[1..]);
    }
  }

  /** `computeSelectedKeys` after a poll returned `read` and `write`: the READ
      pool is walked first, then the WRITE pool. */
  function ComputeSelectedKeys<A>(p: Selector<A>, read: seq<nat>, write: seq<nat>): Selector<A>
    requires Elems(read) <= p.keys.Keys && Elems(write) <= p.keys.Keys
  {
    var cleared := ClearAll(p.keys);
    var marked := MarkPool(MarkPool(cleared, p.acceptIds, read, OP_READ), p.acceptIds, write, OP_WRITE);
    p.(keys := marked, selected := ListOf(Collect(Collect([], read), write)))
  }

  /** The first foreach of `computeSelectedKeys` over the whole registry. */
  function ClearAll<A>(keys: map<nat, Key<A>>): (r: map<nat, Key<A>>)
    ensures r.Keys == keys.Keys
    ensures forall id | id in r :: r[id] == ClearReady(keys[id])
  {
    map id | id in keys :: ClearReady(keys[id])
  }

  /** Recomputation sets every key's ready flags from the two pools alone,
      with ACCEPT taking precedence. */
  lemma ComputedKeys<A>(p: Selector<A>, read: seq<nat>, write: seq<nat>, id: nat)
    requires Valid(p) && id in p.keys
    requires Elems(read) <= p.keys.Keys && Elems(write) <= p.keys.Keys
    ensures id in ComputeSelectedKeys(p, read, write).keys
    ensures KeyRecomputed(p.keys[id], id in p.acceptIds, id in read, id in write, ComputeSelectedKeys(p, read, write).keys[id])
  {
    var cleared := ClearAll(p.keys);
    MarkPoolKey(cleared, p.acceptIds, read, OP_READ, id);
    MarkPoolKey(MarkPool(cleared, p.acceptIds, read, OP_READ), p.acceptIds, write, OP_WRITE, id);
  }

  /** The `$result` list over both pools lists each ready id exactly once. */
  lemma CollectedOnce(read: seq<nat>, write: seq<nat>)
    ensures var m := ListOf(Collect(Collect([], read), write));
      && m.Values == Elems(read) + Elems(write)
      && |m| == |Elems(read) + Elems(write)|
      && (forall i, j | i in m && j in m && i != j :: m[i] != m[j])
  {
    CollectSpec([], read);
    CollectSpec(Collect([], read), write);
    assert Elems<nat>([]) == {};
    ListOfDistinct(Collect(Collect([], read), write));
  }

  /** Everything recomputation promises, for `select`. */
  lemma ComputeSelectedKeysSpec<A>(p: Selector<A>, read: seq<nat>, write: seq<nat>)
    requires Valid(p)
    requires Elems(read) <= WatchedRead(p) && Elems(write) <= WatchedWrite(p)
    ensures RecomputedFrom(p, read, write, ComputeSelectedKeys(p, read, write))
    ensures SelectedIds(ComputeSelectedKeys(p, read, write)) == Elems(read) + Elems(write)
    ensures |ComputeSelectedKeys(p, read, write).selected| == |Elems(read) + Elems(write)|
    ensures Valid(ComputeSelectedKeys(p, read, write))
  {
    var s' := ComputeSelectedKeys(p, read, write);
    forall id | id in s'.keys && id in p.keys
      ensures KeyRecomputed(p.keys[id], id in p.acceptIds, id in read, id in write, s'.keys[id])
    {
      ComputedKeys(p, read, write, id);
    }
    CollectedOnce(read, write);
    assert s'.selected == ListOf(Collect(Collect([], read), write));
    RecomputedKeepsValid(p, read, write, s');
  }

  /** A list built from distinct ids has one position per id, and no id at
      two positions. */
  lemma ListOfDistinct(xs: seq<nat>)
    requires Distinct(xs)
    ensures ListOf(xs).Values == Elems(xs)
    ensures |ListOf(xs)| == |Elems(xs)| == |xs|
    ensures forall i, j | i in ListOf(xs) && j in ListOf(xs) && i != j :: ListOf(xs)[i] != ListOf(xs)[j]
  {
    var m := ListOf(xs);
    assert m.Values == Elems(xs) by {
      forall x | x in Elems(xs) ensures x in m.Values {
        var i :| 0 <= i < |xs| && xs[i] == x;
        assert m[i] == x;
      }
    }
    ListOfCard(xs);
    DistinctCard(xs);
  }

  /** A list has one position per element. */
  lemma {:induction false} ListOfCard(xs: seq<nat>)
    ensures |ListOf(xs)| == |xs|
  {
    if xs != [] {
      var init := xs[..|xs| - 1];
      ListOfCard(init);
      assert ListOf(xs) == ListOf(init)[|init| := xs[|xs| - 1]];
      assert |init| !in ListOf(init);
    }
  }

  lemma {:induction false} DistinctCard(xs: seq<nat>)
    requires Distinct(xs)
    ensures |Elems(xs)| == |xs|
  {
    if xs != [] {
      var last := xs[|xs| - 1];
      var init := xs[..|xs| - 1];
      assert Distinct(init);
      DistinctCard(init);
      assert xs == init + [last];
      assert Elems(xs) == Elems(init) + {last};
      assert last !in Elems(init);
    }
  }
}

=== FILE: socket_server.dfy ===
/** `SocketServer`: a listening TCP endpoint. It is created unbound or bound
    at once, binds at most once, hands out accepted connections as socket
    streams, and wraps its own listening resource in a socket stream on
    first use.

    The operating system is an oracle: `listen` answers `stream_socket_server`
    for a URI and the socket options of its stream context (together with
    the name `stream_socket_get_name` then reports),
    and `accept` answers `stream_socket_accept` for a timeout in seconds.
    PHP's `null` host is the empty string (it behaves the same under `!` and
    `.`), and a `null` or `0` backlog argument is `0`.
 */
module SocketServers {
  import opened Common
  import opened PhpStrings
  import Streams
  import SelectionKeys
  import Selectors

  const DEFAULT_PORT: int := -1
  const DEFAULT_BACKLOG: int := 5
  const DEFAULT_HOST: string := "tcp://0.0.0.0"

  datatype Server = Server(
    port: int,
    host: string,
    backlog: int,
    reuseAddress: bool,
    closed: bool,                       // isClosed
    bound: bool,                        // isBound
    soTimeout: int,                     // milliseconds
    tcpNoDelay: bool,
    resource: Option<nat>,              // the listening resource's id
    socket: Option<Streams.Stream>      // socketObject, created on demand
  )

  /** The `socket` options of the stream context `createServer` hands to
      `stream_socket_server`. */
  datatype SocketOptions = SocketOptions(backlog: int, soReusePort: bool, tcpNoDelay: bool)

  /** What `stream_socket_server` does for one URI and context. */
  datatype Listen =
    | Listening(id: nat, socketName: string)
    | ListenFailed

  /** How the fields of a server hang together: the listening resource
      exists exactly from binding on, until `close()` hands it over to the
      (closed) socket object. */
  ghost predicate Valid(srv: Server) {
    && (!srv.bound ==> srv.resource.None? && srv.socket.None? && !srv.closed)
    && (srv.bound && !srv.closed ==> srv.resource.Some?)
    && (srv.closed ==> srv.resource.None?)
    && (srv.socket.Some? ==> srv.socket.value.kind.Socket?)
    && (srv.closed ==> srv.socket.Some? && srv.socket.value.closed)
  }

  // ------------------------------------------------------------- queries

  /** `isClosed()`: closed by `close()`, or its socket object was closed. */
  predicate IsClosed(srv: Server) {
    srv.closed || (srv.socket.Some? && Streams.IsClosed(srv.socket.value))
  }

  predicate IsBound(srv: Server) {
    srv.bound
  }

  function GetLocalPort(srv: Server): int {
    srv.port
  }

  function GetReuseAddress(srv: Server): bool {
    srv.reuseAddress
  }

  function GetTcpNoDelay(srv: Server): bool {
    srv.tcpNoDelay
  }

  function GetSoTimeout(srv: Server): int {
    srv.soTimeout
  }

  /** `getLocalAddress()`: the host, followed by ":port" unless the port is
      0 (PHP's falsy integer). */
  function GetLocalAddress(srv: Server): string {
    srv.host + (if srv.port != 0 then ":" + IntToString(srv.port) else "")
  }

  /** The local address starts with the host; the port, when shown, is
      what follows its last ':' and reads back as the port. */
  lemma LocalAddressShowsPort(srv: Server)
    ensures var a := GetLocalAddress(srv);
            && |a| >= |srv.host| && a[..|srv.host|] == srv.host
            && (srv.port == 0 ==> a == srv.host)
            && (srv.port != 0 ==> LastSegment(a) == IntToString(srv.port)
                                  && IntCast(LastSegment(a)) == GetLocalPort(srv))
  {
    if srv.port != 0 {
      var a := GetLocalAddress(srv);
      assert a == srv.host + ":" + IntToString(srv.port);
      assert a[..|srv.host|] == srv.host;
      LastSegmentAfterColon(srv.host, IntToString(srv.port));
      IntCastOfIntToString(srv.port);
    }
  }

  // ------------------------------------------------------ creation, bind

  /** The host `createServer` listens on: a falsy host becomes the wildcard. */
  function ListenHost(host: string): (h: string)
    ensures Truthy(h)
    ensures Truthy(host) ==> h == host
  {
    if Truthy(host) then host else DEFAULT_HOST
  }

  /** `createServer()`. The OS is asked with the server's backlog and its
      reuse-address and no-delay settings as the context. The host default
      is stored before the OS is asked, so it stays even when listening
      fails. When the port was 0 the OS picks one, and the port is read
      back, as `(int)`, from what follows the last ':' of the socket's name. */
  function CreateServer(srv: Server, listen: (string, SocketOptions) -> Listen): (r: Outcome<Server, ()>)
    ensures var uri := ListenHost(srv.host) + ":" + IntToString(srv.port);
            var answer := listen(uri, SocketOptions(srv.backlog, srv.reuseAddress, srv.tcpNoDelay));
            && (r.result.Ok? <==> answer.Listening?)
            && (r.result.Err? ==> r.result.error == SocketError && r.state == srv.(host := ListenHost(srv.host)))
            && (r.result.Ok? ==>
                  && r.state.bound
                  && r.state.resource == Some(answer.id)
                  && (srv.port != 0 ==> r.state.port == srv.port)
                  && (srv.port == 0 ==> r.state.port == IntCast(LastSegment(answer.socketName)))
                  && r.state == srv.(host := ListenHost(srv.host), bound := true,
                                     resource := r.state.resource, port := r.state.port))
  {
    var srv1 := srv.(host := ListenHost(srv.host));
    var uri := srv1.host + ":" + IntToString(srv1.port);
    match listen(uri, SocketOptions(srv1.backlog, srv1.reuseAddress, srv1.tcpNoDelay))
    case ListenFailed => Outcome(srv1, Err(SocketError))
    case Listening(id, name) =>
      var port := if srv1.port == 0 then IntCast(LastSegment(name)) else srv1.port;
      Outcome(srv1.(resource := Some(id), port := port, bound := true), Ok(()))
  }

  /** The backlog after a `$backlog` argument: a falsy one keeps the old. */
  function Backlog(current: int, backlog: int): int {
    if backlog != 0 then backlog else current
  }

  /** `new SocketServer($port, $backlog, $host)`. A negative port leaves the
      server unbound on port -1; any other port binds at once, and a failure
      to listen is thrown out of the constructor, so there is no server. */
  function NewServer(port: int, backlog: int, host: string, listen: (string, SocketOptions) -> Listen): (r: Result<Server>)
    ensures port < 0 ==> r.Ok? && !r.value.bound && r.value.port == DEFAULT_PORT && r.value.host == host
    ensures port >= 0 ==>
              (r.Ok? <==> listen(ListenHost(host) + ":" + IntToString(port),
                                 SocketOptions(Backlog(DEFAULT_BACKLOG, backlog), false, false)).Listening?)
    ensures port > 0 && r.Ok? ==> r.value.port == port
    ensures r.Err? ==> r.error == SocketError
    ensures r.Ok? ==> && Valid(r.value) && !IsClosed(r.value) && (r.value.bound <==> port >= 0)
                      && r.value.backlog == (if backlog != 0 then backlog else DEFAULT_BACKLOG)
                      && !r.value.reuseAddress && !r.value.tcpNoDelay && r.value.soTimeout == 0
  {
    var srv := Server(DEFAULT_PORT, host, Backlog(DEFAULT_BACKLOG, backlog), false, false, false, 0, false, None, None);
    if port >= 0 then
      var out := CreateServer(srv.(port := port), listen);
      if out.result.Err? then Err(SocketError) else Ok(out.state)
    else Ok(srv)
  }

  /** `bind($host, $backlog, $port)`. A bound server refuses. Otherwise the
      host and a truthy backlog are stored first; then a server with no
      port, given none, refuses (keeping them); and otherwise it listens. */
  function Bind(srv: Server, host: string, backlog: int, port: int, listen: (string, SocketOptions) -> Listen): (r: Outcome<Server, ()>)
    ensures srv.bound ==> r == Outcome(srv, Err(SocketError))
    ensures !srv.bound && port < 0 && srv.port < 0 ==>
              r == Outcome(srv.(host := host, backlog := Backlog(srv.backlog, backlog)), Err(SocketError))
    ensures var p := if port >= 0 then port else srv.port;
            var opts := SocketOptions(Backlog(srv.backlog, backlog), srv.reuseAddress, srv.tcpNoDelay);
            r.result.Ok? <==> !srv.bound && p >= 0 && listen(ListenHost(host) + ":" + IntToString(p), opts).Listening?
    ensures r.result.Err? ==> r.result.error == SocketError && r.state.bound == srv.bound
    ensures r.result.Ok? ==> && r.state.bound && r.state.host == ListenHost(host)
                             && r.state.backlog == Backlog(srv.backlog, backlog)
                             && (port > 0 ==> r.state.port == port)
                             && (port < 0 ==> r.state.port == srv.port || srv.port == 0)
    ensures Valid(srv) ==> Valid(r.state)
  {
    if srv.bound then Outcome(srv, Err(SocketError))
    else
      var srv1 := srv.(host := host, backlog := Backlog(srv.backlog, backlog));
      if port >= 0 then CreateServer(srv1.(port := port), listen)
      else if srv1.port < 0 then Outcome(srv1, Err(SocketError))
      else CreateServer(srv1, listen)
  }

  /** Binding to port 0 stores the port the operating system reports in the
      socket's name, and the local address then ends in it. */
  lemma BindToAnyPort(srv: Server, host: string, backlog: int, listen: (string, SocketOptions) -> Listen,
                      id: nat, name: string, chosen: int)
    requires !srv.bound
    requires listen(ListenHost(host) + ":0", SocketOptions(Backlog(srv.backlog, backlog), srv.reuseAddress, srv.tcpNoDelay))
               == Listening(id, name + ":" + IntToString(chosen))
    ensures Bind(srv, host, backlog, 0, listen).result == Ok(())
    ensures GetLocalPort(Bind(srv, host, backlog, 0, listen).state) == chosen
  {
    var srv1 := srv.(host := host, backlog := Backlog(srv.backlog, backlog), port := 0);
    assert IntToString(0) == "0";
    assert ListenHost(srv1.host) + ":" + IntToString(srv1.port) == ListenHost(host) + ":0";
    assert Bind(srv, host, backlog, 0, listen) == CreateServer(srv1, listen);
    PortRoundTrip(name, chosen);
  }

  /** A server binds at most once: whatever happened, a second `bind`
      fails and changes nothing. */
  lemma BindOnce(srv: Server, host: string, backlog: int, port: int, listen: (string, SocketOptions) -> Listen,
                 host2: string, backlog2: int, port2: int, listen2: (string, SocketOptions) -> Listen)
    requires Bind(srv, host, backlog, port, listen).result.Ok?
    ensures var s1 := Bind(srv, host, backlog, port, listen).state;
            Bind(s1, host2, backlog2, port2, listen2) == Outcome(s1, Err(SocketError))
  {
  }

  // ------------------------------------------------------------- options

  /** `setReuseAddress($reuse)`: only before binding, and not once closed. */
  function SetReuseAddress(srv: Server, reuse: bool): (r: Result<Server>)
    ensures r.Ok? <==> !srv.bound && !IsClosed(srv)
    ensures r.Err? ==> r.error == SocketError
    ensures r.Ok? ==> GetReuseAddress(r.value) == reuse && r.value.(reuseAddress := srv.reuseAddress) == srv
  {
    if srv.bound then Err(SocketError)
    else if IsClosed(srv) then Err(SocketError)
    else Ok(srv.(reuseAddress := reuse))
  }

  /** `setTcpNoDelay($tcpNoDelay)`: only before binding, and not once closed. */
  function SetTcpNoDelay(srv: Server, noDelay: bool): (r: Result<Server>)
    ensures r.Ok? <==> !srv.bound && !IsClosed(srv)
    ensures r.Err? ==> r.error == SocketError
    ensures r.Ok? ==> GetTcpNoDelay(r.value) == noDelay && r.value.(tcpNoDelay := srv.tcpNoDelay) == srv
  {
    if srv.bound then Err(SocketError)
    else if IsClosed(srv) then Err(SocketError)
    else Ok(srv.(tcpNoDelay := noDelay))
  }

  /** Options chosen before binding are the ones the server listens with:
      `bind` succeeds exactly when the OS accepts the URI with those options
      in the stream context, and they are still reported afterwards. */
  lemma OptionsSurviveBind(srv: Server, reuse: bool, noDelay: bool, host: string, backlog: int, port: int,
                           listen: (string, SocketOptions) -> Listen)
    requires !srv.bound && !IsClosed(srv)
    ensures var s1 := SetTcpNoDelay(SetReuseAddress(srv, reuse).value, noDelay).value;
            var r := Bind(s1, host, backlog, port, listen);
            var p := if port >= 0 then port else srv.port;
            var opts := SocketOptions(Backlog(srv.backlog, backlog), reuse, noDelay);
            && (r.result.Ok? <==> p >= 0 && listen(ListenHost(host) + ":" + IntToString(p), opts).Listening?)
            && GetReuseAddress(r.state) == reuse && GetTcpNoDelay(r.state) == noDelay
  {
  }

  // ------------------------------------------------------ the socket object

  /** `getSocket()`: the socket stream over the listening resource, created
      the first time and kept from then on. Without a resource the stream's
      constructor rejects it. */
  function GetSocket(srv: Server): (r: Outcome<Server, Streams.Stream>)
    ensures srv.socket.Some? ==> r == Outcome(srv, Ok(srv.socket.value))
    ensures srv.socket.None? && srv.resource.None? ==> r == Outcome(srv, Err(InvalidArgument))
    ensures srv.socket.None? && srv.resource.Some? ==>
              && r.result.Ok? && r.state == srv.(socket := Some(r.result.value))
              && var sock := r.result.value;
                 sock.kind.Socket? && sock.id == srv.resource.value && !sock.closed
                 && Streams.IsWritable(sock) && Streams.ProbeReadable(sock, false).1
    ensures Valid(srv) && srv.bound ==> r.result.Ok?
    ensures Valid(srv) ==> Valid(r.state)
  {
    if srv.socket.Some? then Outcome(srv, Ok(srv.socket.value))
    else if srv.resource.None? then Outcome(srv, Err(InvalidArgument))
    else
      var sock := Streams.NewStream(Streams.Socket, srv.resource.value, "");
      Outcome(srv.(socket := Some(sock)), Ok(sock))
  }

  /** Asking twice gives the same socket object and changes nothing more. */
  lemma GetSocketKeepsObject(srv: Server)
    requires GetSocket(srv).result.Ok?
    ensures var first := GetSocket(srv);
            GetSocket(first.state) == first
  {
  }

  /** `setOption($option, $value)`: only on a bound, open server; then the
      socket's own `setOption`, which `supported` says whether the PHP
      sockets extension is there to carry out. */
  function SetOption(srv: Server, supported: bool): (r: Outcome<Server, ()>)
    ensures !srv.bound || IsClosed(srv) ==> r == Outcome(srv, Err(SocketError))
    ensures Valid(srv) && srv.bound && !IsClosed(srv) ==>
              && (r.result.Ok? <==> supported)
              && (r.result.Err? ==> r.result.error == UnsupportedError)
              && r.state == GetSocket(srv).state
    ensures Valid(srv) ==> Valid(r.state)
  {
    if !srv.bound then Outcome(srv, Err(SocketError))
    else if IsClosed(srv) then Outcome(srv, Err(SocketError))
    else
      var got := GetSocket(srv);
      if got.result.Err? then Outcome(got.state, Err(got.result.error))
      else if Streams.IsClosed(got.result.value) then Outcome(got.state, Err(SocketError))
      else if !supported then Outcome(got.state, Err(UnsupportedError))
      else Outcome(got.state, Ok(()))
  }

  /** `setSoTimeout($ms)`: only on a bound server whose socket object is
      still open. Unlike the other setters it does not look at the server's
      own closed flag. */
  function SetSoTimeout(srv: Server, milliseconds: int): (r: Outcome<Server, ()>)
    ensures !srv.bound ==> r == Outcome(srv, Err(SocketError))
    ensures Valid(srv) && srv.bound ==>
              && (r.result.Ok? <==> !Streams.IsClosed(GetSocket(srv).result.value))
              && (r.result.Err? ==> r.result.error == SocketError && r.state == GetSocket(srv).state)
              && (r.result.Ok? ==> r.state == GetSocket(srv).state.(soTimeout := milliseconds))
    ensures r.result.Ok? ==> GetSoTimeout(r.state) == milliseconds
    ensures Valid(srv) ==> Valid(r.state)
  {
    if !srv.bound then Outcome(srv, Err(SocketError))
    else
      var got := GetSocket(srv);
      if got.result.Err? then Outcome(got.state, Err(got.result.error))
      else if Streams.IsClosed(got.result.value) then Outcome(got.state, Err(SocketError))
      else Outcome(got.state.(soTimeout := milliseconds), Ok(()))
  }

  // ---------------------------------------------------------------- close

  /** `close()`: only on a bound, open server. The socket object is closed
      (`doCloseFails` says whether its `doClose` threw); if that throws, the
      server is left with its socket closed but its own flag unset. */
  function Close(srv: Server, doCloseFails: bool): (r: Outcome<Server, ()>)
    ensures !srv.bound || IsClosed(srv) ==> r == Outcome(srv, Err(SocketError))
    ensures Valid(srv) && srv.bound && !IsClosed(srv) ==>
              && (r.result.Err? <==> doCloseFails)
              && (r.result.Err? ==> r.result.error == IOError)
              && (r.result.Ok? ==> r.state.closed && r.state.resource.None?)
              && IsClosed(r.state)
    ensures r.state.bound == srv.bound && r.state.port == srv.port && r.state.host == srv.host
    ensures Valid(srv) ==> Valid(r.state)
  {
    if !srv.bound then Outcome(srv, Err(SocketError))
    else if IsClosed(srv) then Outcome(srv, Err(SocketError))
    else
      var got := GetSocket(srv);
      if got.result.Err? then Outcome(got.state, Err(got.result.error))
      else
        var closed := Streams.Close(got.result.value, doCloseFails);
        var srv1 := got.state.(socket := Some(closed.state));
        if closed.result.Err? then Outcome(srv1, Err(closed.result.error))
        else Outcome(srv1.(resource := None, closed := true), Ok(()))
  }

  /** A server closes once: the second `close()` fails, whether or not the
      first one's `doClose` threw, and changes nothing. */
  lemma {:induction false} CloseTwiceFails(srv: Server, first: bool, second: bool)
    requires Valid(srv)
    ensures var s1 := Close(srv, first).state;
            Close(s1, second) == Outcome(s1, Err(SocketError))
  {
    var s1 := Close(srv, first).state;
    if srv.bound && !IsClosed(srv) {
      assert IsClosed(s1);
    }
  }

  /** No operation unbinds a server. */
  lemma StaysBound(srv: Server, host: string, backlog: int, port: int, listen: (string, SocketOptions) -> Listen,
                   reuse: bool, supported: bool, ms: int, doCloseFails: bool)
    requires srv.bound
    ensures Bind(srv, host, backlog, port, listen).state.bound
    ensures SetReuseAddress(srv, reuse).Err? && SetTcpNoDelay(srv, reuse).Err?
    ensures SetOption(srv, supported).state.bound && SetSoTimeout(srv, ms).state.bound
    ensures GetSocket(srv).state.bound && Close(srv, doCloseFails).state.bound
  {
  }

  // --------------------------------------------------------------- accept

  /** The timeout `accept()` waits for, in seconds: the socket timeout in
      milliseconds when positive, otherwise none. */
  function AcceptTimeout(milliseconds: int): (seconds: real)
    ensures seconds >= 0.0
    ensures milliseconds > 0 ==> seconds * 1000.0 == milliseconds as real
    ensures milliseconds <= 0 ==> seconds == 0.0
  {
    if milliseconds > 0 then milliseconds as real / 1000.0 else 0.0
  }

  /** `accept()`: waits on the listening resource for a connection with the
      server's timeout; none in time is a timeout error, and a connection
      becomes a new, open socket stream. Without a listening resource (never
      bound, or nulled by `close()`), or once the resource was closed through
      the socket object, `stream_socket_accept` fails and so does `accept()`. */
  function Accept(srv: Server, accept: (nat, real) -> Option<nat>): (r: Result<Streams.Stream>)
    ensures srv.resource.None? || IsClosed(srv) ==> r == Err(TimeoutError)
    ensures srv.resource.Some? && !IsClosed(srv) ==>
            var conn := accept(srv.resource.value, AcceptTimeout(GetSoTimeout(srv)));
            && (r.Err? <==> conn.None?)
            && (r.Err? ==> r.error == TimeoutError)
            && (r.Ok? ==> && r.value.kind.Socket? && r.value.id == conn.value
                          && Streams.IsWritable(r.value) && Streams.ProbeReadable(r.value, false).1
                          && r.value.writeBuffer == [] && r.value.dataSent == 0 && r.value.dataReceived == 0)
  {
    if srv.resource.None? || IsClosed(srv) then Err(TimeoutError)
    else
      match accept(srv.resource.value, AcceptTimeout(srv.soTimeout))
      case None => Err(TimeoutError)
      case Some(id) => Ok(Streams.NewStream(Streams.Socket, id, ""))
  }

  /** Only a bound server that is still open hands out connections; for
      such a server, `accept()` succeeds exactly when a connection arrives
      on its listening resource in time. */
  lemma AcceptOnlyWhileListening(srv: Server, accept: (nat, real) -> Option<nat>)
    requires Valid(srv)
    ensures Accept(srv, accept).Ok? ==> srv.bound && !IsClosed(srv)
    ensures srv.bound && !IsClosed(srv) ==>
              && srv.resource.Some?
              && (Accept(srv, accept).Ok? <==> accept(srv.resource.value, AcceptTimeout(srv.soTimeout)).Some?)
  {
  }

  /** After a successful `close()`, `accept()` fails whatever the OS would
      answer. */
  lemma ClosedServerCannotAccept(srv: Server, doCloseFails: bool, accept: (nat, real) -> Option<nat>)
    requires Valid(srv) && Close(srv, doCloseFails).result.Ok?
    ensures Accept(Close(srv, doCloseFails).state, accept) == Err(TimeoutError)
  {
  }

  // ------------------------------------------------------------- register

  /** `register($selector, $operation)`: the server's socket object is
      registered with the selector, as the selector sees it now. */
  function Register<A>(srv: Server, sel: Selectors.Selector<A>, ops: int)
    : (r: Outcome<Server, (Selectors.Selector<A>, SelectionKeys.Key<A>)>)
    ensures r.state == GetSocket(srv).state
    ensures GetSocket(srv).result.Err? ==> r.result == Err(GetSocket(srv).result.error)
    ensures Valid(srv) && srv.bound && !IsClosed(srv) && ops == SelectionKeys.OP_ACCEPT ==>
              && r.result.Ok?
              && var id := GetSocket(srv).result.value.id;
                 var (sel', key) := r.result.value;
                 sel'.keys == sel.keys[id := key] && id in sel'.acceptIds
                 && SelectionKeys.HasOp(key.interestOps, SelectionKeys.OP_ACCEPT)
  {
    var got := GetSocket(srv);
    if got.result.Err? then Outcome(got.state, Err(got.result.error))
    else
      var sock := got.result.value;
      var view := Selectors.StreamView(sock.id, Streams.ProbeReadable(sock, false).1,
                                       Streams.IsWritable(sock), Streams.IsClosed(sock));
      Outcome(got.state, Selectors.Register(sel, view, ops))
  }
}

=== FILE: stream_tunnel.dfy ===
/** `StreamTunnel`: copies what a source stream delivers to a destination
    stream, and applies backpressure through the selector when the
    destination cannot take it all.

    One call of `tunnel()` is one `Tunnel.Step`. The selection keys are given
    as they are at the call (only their ready flags are read); the calls the
    tunnel makes on the selector (`register` on a stream, `cancel` on a key)
    are returned as a sequence of `Effect`s, in the order they are made. The
    OS answers the streams need during the step come in an `Io`.
 */
module StreamTunnels {
  import opened Common
  import opened SelectionKeys
  import opened Streams
  import Selectors

  datatype Tunnel = Tunnel(saturated: bool, id: Option<int>)

  datatype Side = Source | Destination

  /** A call on the selector: `$stream->register($selector, op)` for the
      stream on `side`, or `cancel(op)` on the SOURCE key; the source only
      ever cancels through the source key. */
  datatype Effect = RegisterOp(side: Side, op: int) | CancelOp(side: Side, op: int)

  /** The OS answers one step needs: the EOF probes of the two streams, the
      source's OS read, and the destination's OS writes for `write` and for
      `flush`. */
  datatype Io = Io(srcEof: bool, recv: int -> Option<Bytes>, dstEof: bool, writeOs: OsWrite, flushOs: OsWrite)

  /** Everything one step leaves behind. */
  datatype Step = Step(tunnel: Tunnel, src: Stream, dst: Stream, effects: seq<Effect>, result: Result<()>)

  /** `new StreamTunnel($src, $dst)`: unsaturated, without an id. */
  function NewTunnel(): (t: Tunnel)
    ensures !IsSaturated(t) && GetId(t).Err?
  {
    Tunnel(false, None)
  }

  predicate IsSaturated(t: Tunnel) {
    t.saturated
  }

  function SetSaturated(t: Tunnel, saturated: bool): (r: Tunnel)
    ensures IsSaturated(r) == saturated && r.id == t.id
  {
    t.(saturated := saturated)
  }

  function SetId(t: Tunnel, id: int): (r: Tunnel)
    ensures GetId(r) == Ok(id) && r.saturated == t.saturated
  {
    t.(id := Some(id))
  }

  /** `getId()`: a LogicException until an id was set. */
  function GetId(t: Tunnel): (r: Result<int>)
    ensures r.Err? <==> t.id.None?
    ensures r.Err? ==> r.error == LogicError
  {
    match t.id
    case None => Err(LogicError)
    case Some(id) => Ok(id)
  }

  /** The private `write($data)`. Unless the tunnel is saturated and the
      destination key is not write-ready, non-empty data is written to the
      destination, which is then flushed. A flush that empties the buffer
      ends saturation: READ is registered again for a readable source, and
      WRITE is cancelled on the SOURCE key. A flush that does not starts
      saturation: WRITE is registered for a writable destination and READ is
      cancelled on the source key. */
  function WriteStep<A>(t: Tunnel, dstKey: Key<A>, src: Stream, dst: Stream, data: Bytes, io: Io): (r: Step)
    // a failed write or flush asks nothing of the selector and leaves the
    // tunnel and the source as they were
    ensures r.result.Err? ==> r.effects == [] && r.tunnel == t && r.src == src
    ensures r.tunnel.id == t.id
  {
    if t.saturated && !SelectionKeys.IsWritable(dstKey) then Step(t, src, dst, [], Ok(()))
    else
      var w := if data != [] then Write(dst, data, io.dstEof, io.writeOs) else Outcome(dst, Ok(0));
      if w.result.Err? then Step(t, src, w.state, [], Err(w.result.error))
      else
        var f := Flush(w.state, io.dstEof, io.flushOs);
        if f.result.Err? then Step(t, src, f.state, [], Err(f.result.error))
        else if f.result.value then
          if !t.saturated then Step(t, src, f.state, [], Ok(()))
          else
            var (src1, srcReadable) := ProbeReadable(src, io.srcEof);
            var reg := if srcReadable then [RegisterOp(Source, OP_READ)] else [];
            Step(SetSaturated(t, false), src1, f.state, reg + [CancelOp(Source, OP_WRITE)], Ok(()))
        else if t.saturated then Step(t, src, f.state, [], Ok(()))
        else
          var reg := if Streams.IsWritable(f.state) then [RegisterOp(Destination, OP_WRITE)] else [];
          Step(SetSaturated(t, true), src, f.state, reg + [CancelOp(Source, OP_READ)], Ok(()))
  }

  /** `tunnel()`: a saturated tunnel only retries its flush; otherwise a
      read-ready source is read once and what came is handed to the private
      write. An empty read is the end of the source: a socket source is shut
      down for reading and the step fails with EOF. */
  function TunnelStep<A>(t: Tunnel, srcKey: Key<A>, dstKey: Key<A>, src: Stream, dst: Stream, io: Io): (r: Step)
    // a failing step (a read error, EOF, or a failed write or flush) asks
    // nothing of the selector and leaves the saturation state alone
    ensures r.result.Err? ==> r.effects == [] && r.tunnel == t
    ensures r.tunnel.id == t.id
  {
    if t.saturated then WriteStep(t, dstKey, src, dst, [], io)
    else if !IsReadable(srcKey) then Step(t, src, dst, [], Ok(()))
    else
      var (src1, readable) := ProbeReadable(src, io.srcEof);
      if !readable then Step(t, src1, dst, [CancelOp(Source, OP_READ)], Ok(()))
      else
        var rd := Read(src1, 0, io.srcEof, io.recv);
        if rd.result.Err? then Step(t, rd.state, dst, [], Err(rd.result.error))
        else if rd.result.value == [] then
          if rd.state.kind.Socket? then
            var sh := Shutdown(rd.state, SHUT_RD);
            Step(t, sh.state, dst, [], match sh.result case Err(e) => Err(e) case Ok(_) => Err(EOFError))
          else Step(t, rd.state, dst, [], Err(EOFError))
        else WriteStep(t, dstKey, rd.state, dst, rd.result.value, io)
  }

  // ------------------------------------------------------------ properties

  /** `getId` returns what `setId` stored, whatever was stored before. */
  lemma SetIdThenGetId(t: Tunnel, id: int)
    ensures GetId(SetId(t, id)) == Ok(id)
    ensures GetId(NewTunnel()).Err?
  {
  }

  /** A saturated tunnel never reads its source: the source's counters and
      buffer are as they were, and the destination sees at most one flush
      and no new data. */
  lemma SaturatedNeverReads<A>(t: Tunnel, srcKey: Key<A>, dstKey: Key<A>, src: Stream, dst: Stream, io: Io)
    requires t.saturated
    ensures var r := TunnelStep(t, srcKey, dstKey, src, dst, io);
      && r.src == src.(readable := r.src.readable)
      && (r.dst == dst || r.dst == Flush(dst, io.dstEof, io.flushOs).state)
  {
    assert TunnelStep(t, srcKey, dstKey, src, dst, io) == WriteStep(t, dstKey, src, dst, [], io);
  }

  /** An unsaturated tunnel whose source key is not read-ready does nothing. */
  lemma NotReadyIsNoOp<A>(t: Tunnel, srcKey: Key<A>, dstKey: Key<A>, src: Stream, dst: Stream, io: Io)
    requires !t.saturated && !IsReadable(srcKey)
    ensures TunnelStep(t, srcKey, dstKey, src, dst, io) == Step(t, src, dst, [], Ok(()))
  {
  }

  /** An unsaturated tunnel whose ready source stream is no longer readable
      only cancels READ on the source key. */
  lemma UnreadableSourceCancelsRead<A>(t: Tunnel, srcKey: Key<A>, dstKey: Key<A>, src: Stream, dst: Stream, io: Io)
    requires !t.saturated && IsReadable(srcKey) && !ProbeReadable(src, io.srcEof).1
    ensures var r := TunnelStep(t, srcKey, dstKey, src, dst, io);
      && r.effects == [CancelOp(Source, OP_READ)]
      && r.result.Ok? && r.tunnel == t && r.dst == dst
  {
  }

  /** An empty read ends the tunnel with EOF and leaves the destination
      alone; a socket source is shut down for reading. */
  lemma EmptyReadIsEof<A>(t: Tunnel, srcKey: Key<A>, dstKey: Key<A>, src: Stream, dst: Stream, io: Io)
    requires !t.saturated && IsReadable(srcKey)
    requires ProbeReadable(src, io.srcEof).1
    requires Read(ProbeReadable(src, io.srcEof).0, 0, io.srcEof, io.recv).result == Ok([])
    ensures var r := TunnelStep(t, srcKey, dstKey, src, dst, io);
      && r.result == Err(EOFError) && r.dst == dst && r.effects == [] && r.tunnel == t
      && (src.kind.Socket? ==> !r.src.readable)
  {
  }

  /** Data that was read is written to the destination exactly once and the
      destination is then flushed, whatever the step does next. */
  lemma DataWrittenOnceThenFlushed<A>(t: Tunnel, srcKey: Key<A>, dstKey: Key<A>, src: Stream, dst: Stream, io: Io)
    requires !t.saturated && IsReadable(srcKey)
    requires ProbeReadable(src, io.srcEof).1
    requires var rd := Read(ProbeReadable(src, io.srcEof).0, 0, io.srcEof, io.recv);
      rd.result.Ok? && rd.result.value != []
    requires Write(dst, Read(ProbeReadable(src, io.srcEof).0, 0, io.srcEof, io.recv).result.value, io.dstEof, io.writeOs).result.Ok?
    ensures var data := Read(ProbeReadable(src, io.srcEof).0, 0, io.srcEof, io.recv).result.value;
      TunnelStep(t, srcKey, dstKey, src, dst, io).dst
        == Flush(Write(dst, data, io.dstEof, io.writeOs).state, io.dstEof, io.flushOs).state
  {
  }

  /** A saturated tunnel whose destination key is not write-ready does
      nothing at all. */
  lemma SaturatedWaitsForDestination<A>(t: Tunnel, srcKey: Key<A>, dstKey: Key<A>, src: Stream, dst: Stream, io: Io)
    requires t.saturated && !SelectionKeys.IsWritable(dstKey)
    ensures TunnelStep(t, srcKey, dstKey, src, dst, io) == Step(t, src, dst, [], Ok(()))
  {
  }

  /** A flush that leaves data behind saturates an unsaturated tunnel: WRITE
      is registered for the destination when it is writable, then READ is
      cancelled on the source key. */
  lemma FailedFlushSaturates<A>(t: Tunnel, dstKey: Key<A>, src: Stream, dst: Stream, data: Bytes, io: Io)
    requires !t.saturated
    requires var w := if data != [] then Write(dst, data, io.dstEof, io.writeOs) else Outcome(dst, Ok(0));
      && w.result.Ok?
      && Flush(w.state, io.dstEof, io.flushOs).result == Ok(false)
    ensures var r := WriteStep(t, dstKey, src, dst, data, io);
      && r.tunnel.saturated && r.result.Ok? && r.src == src
      && r.effects == (if Streams.IsWritable(r.dst) then [RegisterOp(Destination, OP_WRITE)] else [])
                        + [CancelOp(Source, OP_READ)]
  {
  }

  /** While saturated, a flush that still leaves data behind changes nothing
      but the destination's buffer. */
  lemma SaturatedFailedFlushStays<A>(t: Tunnel, dstKey: Key<A>, src: Stream, dst: Stream, io: Io)
    requires t.saturated && SelectionKeys.IsWritable(dstKey)
    requires Flush(dst, io.dstEof, io.flushOs).result == Ok(false)
    ensures var r := WriteStep(t, dstKey, src, dst, [], io);
      r == Step(t, src, Flush(dst, io.dstEof, io.flushOs).state, [], Ok(()))
  {
  }

  /** A flush that empties the destination ends saturation: READ is
      registered again for the source when it is still readable, and then
      WRITE is cancelled on the SOURCE key (not the destination's). */
  lemma SuccessfulFlushDesaturates<A>(t: Tunnel, dstKey: Key<A>, src: Stream, dst: Stream, io: Io)
    requires t.saturated && SelectionKeys.IsWritable(dstKey)
    requires Flush(dst, io.dstEof, io.flushOs).result == Ok(true)
    ensures var r := WriteStep(t, dstKey, src, dst, [], io);
      && !r.tunnel.saturated && r.result.Ok?
      && r.effects == (if ProbeReadable(src, io.srcEof).1 then [RegisterOp(Source, OP_READ)] else [])
                        + [CancelOp(Source, OP_WRITE)]
      && r.dst.writeBuffer == []
  {
  }

  /** While unsaturated, a flush that empties the destination changes
      nothing else. */
  lemma UnsaturatedFlushStays<A>(t: Tunnel, dstKey: Key<A>, src: Stream, dst: Stream, data: Bytes, io: Io)
    requires !t.saturated
    requires var w := if data != [] then Write(dst, data, io.dstEof, io.writeOs) else Outcome(dst, Ok(0));
      && w.result.Ok?
      && Flush(w.state, io.dstEof, io.flushOs).result == Ok(true)
    ensures var r := WriteStep(t, dstKey, src, dst, data, io);
      r.tunnel == t && r.effects == [] && r.result.Ok? && r.src == src
  {
  }

  /** Every step changes saturation only in the two ways above: on when a
      flush left data behind, with READ on the source cancelled last; off
      when a flush emptied the buffer, with WRITE on the source key cancelled
      last. The id is never touched. */
  lemma SaturationFollowsFlush<A>(t: Tunnel, srcKey: Key<A>, dstKey: Key<A>, src: Stream, dst: Stream, io: Io)
    ensures TunnelStep(t, srcKey, dstKey, src, dst, io).tunnel.id == t.id
    ensures var r := TunnelStep(t, srcKey, dstKey, src, dst, io);
      !t.saturated && r.tunnel.saturated ==>
        r.result.Ok? && r.dst.writeBuffer != [] && r.effects != [] && r.effects[|r.effects| - 1] == CancelOp(Source, OP_READ)
    ensures var r := TunnelStep(t, srcKey, dstKey, src, dst, io);
      t.saturated && !r.tunnel.saturated ==>
        r.result.Ok? && r.dst.writeBuffer == [] && r.effects != [] && r.effects[|r.effects| - 1] == CancelOp(Source, OP_WRITE)
  {
  }

  // ------------------------------------------------- effects on a selector

  /** The calls of a step made, in order, on the selector the two streams
      are registered with: `register` of the side's stream for a
      `RegisterOp`, and for a `CancelOp` the `unregister` the key's `cancel`
      delegates to. The streams are seen through their views at the time of
      the calls; the first call that throws ends the sequence with its error. */
  function ApplyEffects<A>(sel: Selectors.Selector<A>, srcView: Selectors.StreamView, dstView: Selectors.StreamView,
                           effects: seq<Effect>): (r: Result<Selectors.Selector<A>>)
    ensures effects == [] ==> r == Ok(sel)
    decreases |effects|
  {
    if effects == [] then Ok(sel)
    else
      var view := if effects[0].side == Source then srcView else dstView;
      var first: Result<Selectors.Selector<A>> :=
        match effects[0]
        case RegisterOp(_, op) =>
          (match Selectors.Register(sel, view, op)
           case Ok(p) => Ok(p.0)
           case Err(e) => Err(e))
        case CancelOp(_, op) => Selectors.Unregister(sel, view.id, view.closed, op);
      if first.Err? then first else ApplyEffects(first.value, srcView, dstView, effects[1..])
  }

  /** The calls a saturating step makes (WRITE registered for a writable,
      open destination, when asked, then READ cancelled on the source) drop
      the key of a source that had no WRITE interest, and nothing fails. */
  lemma SaturatingCallsDropReadOnlySource<A>(sel: Selectors.Selector<A>, srcView: Selectors.StreamView,
                                             dstView: Selectors.StreamView, registerDst: bool)
    requires srcView.id in sel.keys && srcView.id !in sel.writeIds && !srcView.closed
    requires dstView.id != srcView.id && dstView.writable && !dstView.closed
    ensures var effects := (if registerDst then [RegisterOp(Destination, OP_WRITE)] else []) + [CancelOp(Source, OP_READ)];
            var a := ApplyEffects(sel, srcView, dstView, effects);
            a.Ok? && srcView.id !in a.value.keys
  {
    var effects := (if registerDst then [RegisterOp(Destination, OP_WRITE)] else []) + [CancelOp(Source, OP_READ)];
    var sel1 := if registerDst then Selectors.Register(sel, dstView, OP_WRITE).value.0 else sel;
    assert srcView.id in sel1.keys && srcView.id !in sel1.writeIds;
    assert ApplyEffects(sel, srcView, dstView, effects)
        == ApplyEffects(sel1, srcView, dstView, [CancelOp(Source, OP_READ)]);
    var a1 := Selectors.Unregister(sel1, srcView.id, false, OP_READ);
    assert a1.Ok? && srcView.id !in a1.value.keys;
    assert ApplyEffects(sel1, srcView, dstView, [CancelOp(Source, OP_READ)]) == a1;
  }

  /** Saturation can strand an open source that was registered for READ
      only. The saturating step's `cancel(OP_READ)` leaves its key with no
      interest, so the key is dropped. When the source has reached its end
      by the time a flush ends saturation, READ is not registered again, and
      the step's `cancel(OP_WRITE)` finds no key for an open stream and
      throws, although the step itself reports success. */
  lemma DesaturationCanThrow<A>(sel: Selectors.Selector<A>, srcView: Selectors.StreamView, dstView: Selectors.StreamView,
                                t: Tunnel, dstKey: Key<A>, dstKey2: Key<A>, src: Stream, dst: Stream, data: Bytes,
                                io: Io, io2: Io)
    requires srcView.id in sel.keys && srcView.id !in sel.writeIds && !srcView.closed
    requires dstView.id != srcView.id && dstView.writable && !dstView.closed
    requires !t.saturated
    requires var w := if data != [] then Write(dst, data, io.dstEof, io.writeOs) else Outcome(dst, Ok(0));
      && w.result.Ok?
      && Flush(w.state, io.dstEof, io.flushOs).result == Ok(false)
    requires var s1 := WriteStep(t, dstKey, src, dst, data, io);
      && SelectionKeys.IsWritable(dstKey2)
      && Flush(s1.dst, io2.dstEof, io2.flushOs).result == Ok(true)
      && !ProbeReadable(s1.src, io2.srcEof).1
    ensures var s1 := WriteStep(t, dstKey, src, dst, data, io);
            var s2 := WriteStep(s1.tunnel, dstKey2, s1.src, s1.dst, [], io2);
            var a1 := ApplyEffects(sel, srcView, dstView, s1.effects);
            && s1.tunnel.saturated && !s2.tunnel.saturated && s2.result == Ok(())
            && a1.Ok? && srcView.id !in a1.value.keys
            && ApplyEffects(a1.value, srcView, dstView, s2.effects) == Err(IOError)
  {
    FailedFlushSaturates(t, dstKey, src, dst, data, io);
    var s1 := WriteStep(t, dstKey, src, dst, data, io);
    SuccessfulFlushDesaturates(s1.tunnel, dstKey2, s1.src, s1.dst, io2);
    var s2 := WriteStep(s1.tunnel, dstKey2, s1.src, s1.dst, [], io2);
    assert s2.effects == [CancelOp(Source, OP_WRITE)];
    SaturatingCallsDropReadOnlySource(sel, srcView, dstView, Streams.IsWritable(s1.dst));
  }
}

=== FILE: streams.dfy ===
/** `AbstractStream` and the `SocketStream` overrides: readiness flags, the
    write buffer with its threshold, the byte counters, strict close and the
    half-close flag machine.

    One datatype covers both classes; `kind` says which methods apply. The
    PHP resource handle is present exactly while the stream is not closed (a
    handle closed behind the stream's back is not modelled), so "flag and
    resource" reads "flag and not closed". Every OS call is an input: the EOF
    probe (`feof` / `stream_get_meta_data`) is a boolean, the OS write is an
    `OsWrite`, the OS read is a function from the requested size to the data
    or `None` for `false`, and the outcome of `stream_set_blocking` and of a
    subclass's `doClose` are booleans.
 */
module Streams {
  import opened Common

  const DEFAULT_WRITE_BUFFER_SIZE: int := 65536
  const DEFAULT_READ_BUFFER_SIZE: int := 65536
  /** SocketStream's initial soTimeout, in milliseconds. */
  const DEFAULT_SO_TIMEOUT: int := 1000

  /** `shutdown` operations (PHP's STREAM_SHUT_* constants). */
  const SHUT_RD: int := 0
  const SHUT_WR: int := 1
  const SHUT_RDWR: int := 2

  datatype Kind = Plain | Socket

  datatype Stream = Stream(
    kind: Kind,
    id: nat,                // resource id, (int) of the handle
    readable: bool,         // $isReadable
    writable: bool,         // $isWritable
    closed: bool,           // $isClosed; the handle is gone exactly when set
    blocking: bool,         // $isBlocking
    writeBuffer: Bytes,
    writeBufferSize: int,
    readBufferSize: int,
    dataSent: int,
    dataReceived: int,
    soTimeout: int          // SocketStream only
  )

  /** What one OS write call reported. */
  datatype OsWrite =
    | Wrote(n: int)   // the call's integer result
    | WriteFalse      // the call returned false

  // ------------------------------------------------------- mode detection

  /** `preg_match('~([waxc]|r\+)~', $mode)`: some position holds one of
      w, a, x, c, or starts "r+". */
  ghost predicate MatchesWritableMode(mode: string) {
    exists i | 0 <= i < |mode| ::
      mode[i] in "waxc" || (mode[i] == 'r' && i + 1 < |mode| && mode[i + 1] == '+')
  }

  /** `preg_match('~(r|r\+|w\+|x\+|a\+|c\+)~', $mode)`: some position holds
      r, or one of w, x, a, c followed by '+'. */
  ghost predicate MatchesReadableMode(mode: string) {
    exists i | 0 <= i < |mode| ::
      mode[i] == 'r' || (mode[i] in "wxac" && i + 1 < |mode| && mode[i + 1] == '+')
  }

  /** The writable-mode test, scanning the mode string left to right. */
  function WritableMode(mode: string): (r: bool)
    ensures r <==> MatchesWritableMode(mode)
    decreases |mode|
  {
    if mode == [] then false
    else if mode[0] in "waxc" || (mode[0] == 'r' && 1 < |mode| && mode[1] == '+') then
      assert MatchesWritableMode(mode) by {
        assert 0 < |mode|;
      }
      true
    else
      var rest := WritableMode(mode[1..]);
      ScanStep(mode, true);
      rest
  }

  /** The readable-mode test, scanning the mode string left to right. */
  function ReadableMode(mode: string): (r: bool)
    ensures r <==> MatchesReadableMode(mode)
    decreases |mode|
  {
    if mode == [] then false
    else if mode[0] == 'r' || (mode[0] in "wxac" && 1 < |mode| && mode[1] == '+') then
      assert MatchesReadableMode(mode) by {
        assert 0 < |mode|;
      }
      true
    else
      var rest := ReadableMode(mode[1..]);
      ScanStep(mode, false);
      rest
  }

  /** When the first position does not match, a mode matches exactly when its
      tail does: the matching positions of the tail are those of the mode,
      shifted by one. */
  lemma ScanStep(mode: string, writable: bool)
    requires mode != []
    requires writable ==> !(mode[0] in "waxc" || (mode[0] == 'r' && 1 < |mode| && mode[1] == '+'))
    requires !writable ==> !(mode[0] == 'r' || (mode[0] in "wxac" && 1 < |mode| && mode[1] == '+'))
    ensures writable ==> (MatchesWritableMode(mode) <==> MatchesWritableMode(mode[1..]))
    ensures !writable ==> (MatchesReadableMode(mode) <==> MatchesReadableMode(mode[1..]))
  {
    var tail := mode[1..];
    if writable {
      if MatchesWritableMode(mode) {
        var i :| 0 <= i < |mode| && (mode[i] in "waxc" || (mode[i] == 'r' && i + 1 < |mode| && mode[i + 1] == '+'));
        assert i > 0;
        assert tail[i - 1] == mode[i];
        assert i < |tail| ==> tail[i] == mode[i + 1];
      }
      if MatchesWritableMode(tail) {
        var j :| 0 <= j < |tail| && (tail[j] in "waxc" || (tail[j] == 'r' && j + 1 < |tail| && tail[j + 1] == '+'));
        assert mode[j + 1] == tail[j];
      }
    } else {
      if MatchesReadableMode(mode) {
        var i :| 0 <= i < |mode| && (mode[i] == 'r' || (mode[i] in "wxac" && i + 1 < |mode| && mode[i + 1] == '+'));
        assert i > 0;
        assert tail[i - 1] == mode[i];
        assert i < |tail| ==> tail[i] == mode[i + 1];
      }
      if MatchesReadableMode(tail) {
        var j :| 0 <= j < |tail| && (tail[j] == 'r' || (tail[j] in "wxac" && j + 1 < |tail| && tail[j + 1] == '+'));
        assert mode[j + 1] == tail[j];
      }
    }
  }

  /** A new stream on a handle with resource id `id` opened in `mode`. A socket
      stream is readable and writable whatever its mode. */
  function NewStream(kind: Kind, id: nat, mode: string): (s: Stream)
    ensures kind.Socket? ==> s.readable && s.writable
    ensures kind.Plain? ==> (s.readable <==> MatchesReadableMode(mode)) && (s.writable <==> MatchesWritableMode(mode))
    ensures !s.closed && s.blocking && s.writeBuffer == []
    ensures s.writeBufferSize == DEFAULT_WRITE_BUFFER_SIZE && s.readBufferSize == DEFAULT_READ_BUFFER_SIZE
    ensures s.dataSent == 0 && s.dataReceived == 0 && s.soTimeout == DEFAULT_SO_TIMEOUT
    ensures s.kind == kind && s.id == id
  {
    var readable := if kind.Socket? then true else ReadableMode(mode);
    var writable := if kind.Socket? then true else WritableMode(mode);
    Stream(kind, id, readable, writable, false, true, [], DEFAULT_WRITE_BUFFER_SIZE,
           DEFAULT_READ_BUFFER_SIZE, 0, 0, DEFAULT_SO_TIMEOUT)
  }

  // ------------------------------------------------------- state queries

  predicate IsClosed(s: Stream) {
    s.closed
  }

  predicate IsWritable(s: Stream) {
    s.writable && !s.closed
  }

  /** `isReadable()`, given what the EOF probe would answer now. On a plain
      stream the call itself stores its answer in the flag, so EOF, once seen,
      latches the stream unreadable; a socket stream only reads the flag. */
  function ProbeReadable(s: Stream, eof: bool): (r: (Stream, bool))
    ensures r.1 ==> s.readable && !s.closed
    ensures s.kind.Socket? ==> r == (s, s.readable && !s.closed)
    ensures s.kind.Plain? ==> (r.1 <==> s.readable && !s.closed && !eof)
    ensures s.kind.Plain? ==> r.0 == s.(readable := if s.readable && !s.closed then !eof else s.readable)
  {
    match s.kind
    case Socket => (s, s.readable && !s.closed)
    case Plain =>
      if s.readable && !s.closed then (s.(readable := !eof), !eof) else (s, false)
  }

  /** Once a plain stream has seen EOF, no later probe finds it readable,
      whatever EOF says then. */
  lemma EofLatches(s: Stream, later: bool)
    requires s.kind.Plain?
    ensures !ProbeReadable(ProbeReadable(s, true).0, later).1
    ensures !s.closed ==> !ProbeReadable(s, true).0.readable
  {
  }

  // ---------------------------------------------------------------- read

  /** The size `doRead` asks the OS for: the argument, or the read buffer
      size when the argument is 0. */
  function ReadRequest(s: Stream, size: int): int {
    if size != 0 then size else s.readBufferSize
  }

  /** `read($size)`. `eof` is what the EOF probe answers during the call and
      `recv` what the OS read returns for a requested size (`None` for false).
      A plain stream fails when not readable or at EOF and turns an OS false
      into ""; a socket stream fails when its flag is down and, on an OS false,
      drops the flag and fails. */
  function Read(s: Stream, size: int, eof: bool, recv: int -> Option<Bytes>): (r: Outcome<Stream, Bytes>)
    ensures s.kind.Plain? ==> (r.result.Ok? <==> s.readable && !s.closed && !eof)
    ensures s.kind.Socket? ==> (r.result.Ok? <==> s.readable && recv(ReadRequest(s, size)).Some?)
    ensures r.result.Err? ==> r.result.error == IOError
    // what comes back is what the OS returned for the requested size
    ensures r.result.Ok? ==>
              r.result.value == (if recv(ReadRequest(s, size)).Some? then recv(ReadRequest(s, size)).value else [])
    ensures r.result.Ok? ==> r.state == s.(dataReceived := s.dataReceived + |r.result.value|)
    // a failed read only ever lowers the readable flag
    ensures r.result.Err? ==> r.state == s.(readable := r.state.readable) && (r.state.readable ==> s.readable)
  {
    var request := ReadRequest(s, size);
    match s.kind
    case Plain =>
      var (s1, readable) := ProbeReadable(s, eof);
      if !readable || eof then Outcome(s1, Err(IOError))
      else
        var data := if recv(request).Some? then recv(request).value else [];
        Outcome(s1.(dataReceived := s1.dataReceived + |data|), Ok(data))
    case Socket =>
      if !s.readable then Outcome(s, Err(IOError))
      else if recv(request).None? then Outcome(s.(readable := false), Err(IOError))
      else
        var data := recv(request).value;
        Outcome(s.(dataReceived := s.dataReceived + |data|), Ok(data))
  }

  // --------------------------------------------------------------- write

  /** The bytes an OS write of `buf` took: its first `n`, at most all of it. */
  function Taken(buf: Bytes, n: int): Bytes {
    if n <= 0 then [] else if n >= |buf| then buf else buf[..n]
  }

  /** `substr($buf, $n)` for the count an OS write reported. */
  function Drop(buf: Bytes, n: int): (r: Bytes)
    ensures Taken(buf, n) + r == buf
  {
    if n <= 0 then buf else if n >= |buf| then [] else buf[n..]
  }

  /** An OS write result that a well-behaved OS can return for a buffer. */
  predicate Plausible(os: OsWrite, buf: Bytes) {
    os.Wrote? ==> os.n <= |buf|
  }

  /** `doWrite`: one OS write of the whole buffer. At EOF, or when the OS
      write fails or reports a negative count, the stream becomes unwritable
      and the call fails; otherwise the reported count is dropped from the
      head of the buffer and returned. */
  function DoWrite(s: Stream, eof: bool, os: OsWrite): (r: Outcome<Stream, int>)
    ensures r.result.Err? <==> eof || os.WriteFalse? || (os.Wrote? && os.n < 0)
    ensures r.result.Err? ==> r.result.error == IOError && r.state == s.(writable := false)
    ensures r.result.Ok? ==> r.result.value == os.n >= 0
    // what was sent, followed by what is left, is what was buffered
    ensures r.result.Ok? ==>
              r.state == s.(writeBuffer := r.state.writeBuffer)
              && Taken(s.writeBuffer, r.result.value) + r.state.writeBuffer == s.writeBuffer
    ensures r.result.Ok? && Plausible(os, s.writeBuffer) ==> |r.state.writeBuffer| == |s.writeBuffer| - r.result.value
  {
    if eof then Outcome(s.(writable := false), Err(IOError))
    else
      match os
      case WriteFalse => Outcome(s.(writable := false), Err(IOError))
      case Wrote(n) =>
        if n < 0 then Outcome(s.(writable := false), Err(IOError))
        else if n != 0 then Outcome(s.(writeBuffer := Drop(s.writeBuffer, n)), Ok(n))
        else Outcome(s, Ok(0))
  }

  /** Whether `write` leaves its data in the buffer without an OS write: the
      buffer is enabled (size above 0) and has no byte at index `size`. */
  predicate Buffers(s: Stream, buf: Bytes) {
    s.writeBufferSize > 0 && |buf| <= s.writeBufferSize
  }

  /** `write($data)`: append to the buffer, and once the buffer exceeds its
      size (or buffering is off) send it with one OS write. */
  function Write(s: Stream, data: Bytes, eof: bool, os: OsWrite): (r: Outcome<Stream, int>)
    ensures !IsWritable(s) ==> r == Outcome(s, Err(IOError))
    ensures IsWritable(s) && Buffers(s, s.writeBuffer + data) ==>
              r == Outcome(s.(writeBuffer := s.writeBuffer + data), Ok(0))
    ensures IsWritable(s) && !Buffers(s, s.writeBuffer + data) ==>
              && (r.result.Err? <==> eof || os.WriteFalse? || (os.Wrote? && os.n < 0))
              && (r.result.Err? ==> r.state == s.(writeBuffer := s.writeBuffer + data, writable := false))
              && (r.result.Ok? ==> r.result.value == os.n)
    // bytes are neither lost nor invented: sent ++ still buffered == buffered before ++ data
    ensures r.result.Ok? ==>
              && Taken(s.writeBuffer + data, r.result.value) + r.state.writeBuffer == s.writeBuffer + data
              && r.state.dataSent == s.dataSent + r.result.value
              && r.state == s.(writeBuffer := r.state.writeBuffer, dataSent := r.state.dataSent)
    ensures r.result.Ok? && Plausible(os, s.writeBuffer + data) ==>
              r.state.dataSent + |r.state.writeBuffer| == s.dataSent + |s.writeBuffer| + |data|
  {
    if !IsWritable(s) then Outcome(s, Err(IOError))
    else
      var s1 := s.(writeBuffer := s.writeBuffer + data);
      if Buffers(s, s1.writeBuffer) then Outcome(s1, Ok(0))
      else
        var w := DoWrite(s1, eof, os);
        if w.result.Err? then w
        else Outcome(w.state.(dataSent := w.state.dataSent + w.result.value), w.result)
  }

  /** `flush()`: one OS write attempt; true exactly when nothing is left in
      the buffer. The sent count is not added to `dataSent`. */
  function Flush(s: Stream, eof: bool, os: OsWrite): (r: Outcome<Stream, bool>)
    ensures r.result.Err? <==> eof || os.WriteFalse? || (os.Wrote? && os.n < 0)
    ensures r.result.Err? ==> r.result.error == IOError && r.state == s.(writable := false)
    ensures r.result.Ok? ==> (r.result.value <==> r.state.writeBuffer == [])
    ensures r.result.Ok? ==>
              r.state == s.(writeBuffer := r.state.writeBuffer)
              && r.state.writeBuffer == Drop(s.writeBuffer, os.n)
  {
    var w := DoWrite(s, eof, os);
    if w.result.Err? then Outcome(w.state, Err(w.result.error))
    else Outcome(w.state, Ok(|w.state.writeBuffer| == 0))
  }

  /** The OS write of `DummySelectableStream`: it always takes the whole buffer. */
  function Drain(s: Stream): OsWrite {
    Wrote(|s.writeBuffer|)
  }

  /** A flush against a draining OS succeeds and empties the buffer; one
      against an OS that takes less than all of a non-empty buffer reports
      false. */
  lemma FlushDrains(s: Stream, n: int)
    ensures Flush(s, false, Drain(s)) == Outcome(s.(writeBuffer := []), Ok(true))
    ensures 0 <= n < |s.writeBuffer| ==> Flush(s, false, Wrote(n)).result == Ok(false)
  {
    if s.writeBuffer == [] {
      assert s.(writeBuffer := []) == s;
    }
  }

  /** With buffering off, every write to a writable stream against a draining
      OS sends exactly its data and leaves the buffer empty. */
  lemma UnbufferedWriteSendsAll(s: Stream, data: Bytes)
    requires IsWritable(s) && s.writeBufferSize == 0 && s.writeBuffer == []
    ensures Write(s, data, false, Wrote(|data|)).result == Ok(|data|)
    ensures Write(s, data, false, Wrote(|data|)).state.writeBuffer == []
    ensures Write(s, data, false, Wrote(|data|)).state.dataSent == s.dataSent + |data|
  {
    assert s.writeBuffer + data == data;
  }

  /** The concatenation of a sequence of chunks. */
  function Concat(chunks: seq<Bytes>): Bytes
    decreases |chunks|
  {
    if chunks == [] then [] else chunks[0] + Concat(chunks[1..])
  }

  /** Writes applied in order, against OS writes `os[i]` for chunk `i`;
      stops at the first failure. */
  function WriteAll(s: Stream, chunks: seq<Bytes>, eof: bool, os: seq<OsWrite>): Outcome<Stream, int>
    requires |os| == |chunks|
    decreases |chunks|
  {
    if chunks == [] then Outcome(s, Ok(0))
    else
      var w := Write(s, chunks[0], eof, os[0]);
      if w.result.Err? then w
      else
        var rest := WriteAll(w.state, chunks[1..], eof, os[1..]);
        if rest.result.Err? then rest else Outcome(rest.state, Ok(w.result.value + rest.result.value))
  }

  /** Every OS write in the run is plausible for the buffer it is given. */
  ghost predicate PlausibleRun(s: Stream, chunks: seq<Bytes>, eof: bool, os: seq<OsWrite>)
    requires |os| == |chunks|
    decreases |chunks|
  {
    chunks != [] ==>
      && Plausible(os[0], s.writeBuffer + chunks[0])
      && var w := Write(s, chunks[0], eof, os[0]);
         (w.result.Ok? ==> PlausibleRun(w.state, chunks[1..], eof, os[1..]))
  }

  /** Over a run of successful writes, what the stream reports as sent plus
      what is still buffered grows by exactly the total size of the data. */
  lemma {:induction false} WriteAllConserves(s: Stream, chunks: seq<Bytes>, eof: bool, os: seq<OsWrite>)
    requires |os| == |chunks| && PlausibleRun(s, chunks, eof, os)
    requires WriteAll(s, chunks, eof, os).result.Ok?
    ensures var r := WriteAll(s, chunks, eof, os);
      && r.state.dataSent + |r.state.writeBuffer| == s.dataSent + |s.writeBuffer| + |Concat(chunks)|
      && r.state.dataSent == s.dataSent + r.result.value
    decreases |chunks|
  {
    if chunks != [] {
      var w := Write(s, chunks[0], eof, os[0]);
      WriteAllConserves(w.state, chunks[1..], eof, os[1..]);
    }
  }

  /** While the buffer stays within its size, writes only append: the buffer
      holds the old contents followed by every chunk, and nothing is sent. */
  lemma {:induction false} BufferedWritesAccumulate(s: Stream, chunks: seq<Bytes>, eof: bool, os: seq<OsWrite>)
    requires |os| == |chunks| && IsWritable(s)
    requires s.writeBufferSize > 0 && |s.writeBuffer| + |Concat(chunks)| <= s.writeBufferSize
    ensures WriteAll(s, chunks, eof, os) == Outcome(s.(writeBuffer := s.writeBuffer + Concat(chunks)), Ok(0))
    decreases |chunks|
  {
    if chunks == [] {
      assert s.writeBuffer + Concat(chunks) == s.writeBuffer;
    } else {
      var s1 := s.(writeBuffer := s.writeBuffer + chunks[0]);
      assert Write(s, chunks[0], eof, os[0]) == Outcome(s1, Ok(0));
      assert s1.writeBuffer + Concat(chunks[1..]) == s.writeBuffer + Concat(chunks);
      BufferedWritesAccumulate(s1, chunks[1..], eof, os[1..]);
    }
  }

  // --------------------------------------------------------------- close

  /** `close()`, where `doCloseFails` says whether the class's `doClose`
      threw an IOException. Closing twice fails and changes nothing; the
      first close marks the stream closed, unreadable and unwritable before
      `doClose` runs, and rethrows its failure afterwards. The write buffer is
      not sent. */
  function Close(s: Stream, doCloseFails: bool): (r: Outcome<Stream, ()>)
    ensures s.closed ==> r == Outcome(s, Err(IOError))
    ensures !s.closed ==> r.state == s.(readable := false, writable := false, closed := true)
    ensures !s.closed ==> (r.result.Err? <==> doCloseFails)
    ensures r.result.Err? ==> r.result.error == IOError
    ensures IsClosed(r.state) && !IsWritable(r.state) && !ProbeReadable(r.state, false).1
  {
    if s.closed then Outcome(s, Err(IOError))
    else
      var s1 := s.(readable := false, writable := false, closed := true);
      if doCloseFails then Outcome(s1, Err(IOError)) else Outcome(s1, Ok(()))
  }

  /** The second close of a stream always fails and leaves it as the first
      close left it. */
  lemma CloseTwiceFails(s: Stream, first: bool, second: bool)
    ensures Close(Close(s, first).state, second) == Outcome(Close(s, first).state, Err(IOError))
  {
  }

  // ------------------------------------------------------------ settings

  /** `setBlocking($isBlocking)`; `osOk` is what `stream_set_blocking` returned. */
  function SetBlocking(s: Stream, blocking: bool, osOk: bool): (r: Result<Stream>)
    ensures r.Ok? <==> osOk
    ensures r.Ok? ==> r.value == s.(blocking := blocking)
    ensures r.Err? ==> r.error == IOError
  {
    if !osOk then Err(IOError) else Ok(s.(blocking := blocking))
  }

  /** `setWriteBufferSize($size)`: 0 turns buffering off, a negative size is
      rejected. */
  function SetWriteBufferSize(s: Stream, size: int): (r: Result<Stream>)
    ensures r.Ok? <==> size >= 0
    ensures r.Ok? ==> r.value == s.(writeBufferSize := size)
    ensures r.Err? ==> r.error == OutOfRange
  {
    if size < 0 then Err(OutOfRange) else Ok(s.(writeBufferSize := size))
  }

  /** `setReadBufferSize($size)`: only a positive size is accepted. */
  function SetReadBufferSize(s: Stream, size: int): (r: Result<Stream>)
    ensures r.Ok? <==> size > 0
    ensures r.Ok? ==> r.value == s.(readBufferSize := size)
    ensures r.Err? ==> r.error == OutOfRange
  {
    if size <= 0 then Err(OutOfRange) else Ok(s.(readBufferSize := size))
  }

  /** After a successful `setReadBufferSize`, a `read(0)` asks the OS for
      that many bytes. */
  lemma ReadBufferSizeUsed(s: Stream, size: int)
    requires SetReadBufferSize(s, size).Ok?
    ensures ReadRequest(SetReadBufferSize(s, size).value, 0) == size
  {
  }

  // ------------------------------------------------------ SocketStream only

  /** `shutdown($operation)` on a socket stream. The read side is checked and
      lowered first, then the write side; a side already down fails the call,
      keeping what was lowered before it. Other operation codes change no
      flag. */
  function Shutdown(s: Stream, op: int): (r: Outcome<Stream, ()>)
    requires s.kind.Socket?
    ensures (op == SHUT_RD || op == SHUT_RDWR) && !s.readable ==> r == Outcome(s, Err(IOError))
    ensures (op == SHUT_WR || op == SHUT_RDWR) && (s.readable || op == SHUT_WR) && !s.writable ==>
              r == Outcome(s.(readable := if op == SHUT_RDWR then false else s.readable), Err(IOError))
    ensures r.result.Ok? <==>
              (op == SHUT_RD ==> s.readable) && (op == SHUT_WR ==> s.writable) && (op == SHUT_RDWR ==> s.readable && s.writable)
    ensures r.result.Ok? ==>
              r.state == s.(readable := s.readable && op != SHUT_RD && op != SHUT_RDWR,
                            writable := s.writable && op != SHUT_WR && op != SHUT_RDWR)
    ensures r.result.Err? ==> r.result.error == IOError
  {
    var readSide := op == SHUT_RD || op == SHUT_RDWR;
    var writeSide := op == SHUT_WR || op == SHUT_RDWR;
    if readSide && !s.readable then Outcome(s, Err(IOError))
    else
      var s1 := if readSide then s.(readable := false) else s;
      if writeSide && !s1.writable then Outcome(s1, Err(IOError))
      else Outcome(if writeSide then s1.(writable := false) else s1, Ok(()))
  }

  /** `shutdown(RDWR)` is `shutdown(RD)` followed by `shutdown(WR)`. */
  lemma ShutdownBothIsReadThenWrite(s: Stream)
    requires s.kind.Socket?
    ensures Shutdown(s, SHUT_RD).result.Err? ==> Shutdown(s, SHUT_RDWR) == Shutdown(s, SHUT_RD)
    ensures Shutdown(s, SHUT_RD).result.Ok? ==> Shutdown(s, SHUT_RDWR) == Shutdown(Shutdown(s, SHUT_RD).state, SHUT_WR)
  {
  }

  function GetSoTimeout(s: Stream): int
    requires s.kind.Socket?
  {
    s.soTimeout
  }

  /** `setSoTimeout($milliseconds)`: stored as given, read back unchanged. */
  function SetSoTimeout(s: Stream, milliseconds: int): (r: Stream)
    requires s.kind.Socket?
    ensures r == s.(soTimeout := r.soTimeout)
    ensures GetSoTimeout(r) == milliseconds
  {
    s.(soTimeout := milliseconds)
  }
}
